=== FILE: README.md ===
# Classroom derivations in Dafny

This project models the logic inside a classroom-management web UI. The UI keeps students, classes, assignments, grades and attendance records. Its page and grid components compute everything the teacher sees from plain lists of those records:

- **Grade matrix**: a grade cell, the letter band of a percentage, and a student's running average.
- **Attendance grid**: the status of a day's cell, the click cycle of a status dot, and a student's attendance rate.
- **Local upserts**: the Grades and Attendance pages update their lists when a cell is edited, changing one record in place or appending a new one with a fresh id.
- **Reports and Dashboard**: filtered counts, attendance rates, mean scores, ranked student and class averages, today's attendance and the class cards.
- **Badges**: the lookups from a student status and from a letter grade to a badge variant, and the text the grade pill shows after the letter.
- **Students and Classes pages**: the class-name join, enrollment counts, case-insensitive search, and the validated add-class handler.

Records come either from a hosted backend, whose field names carry a `_c` suffix, or from fixture data with plain names. Each record datatype therefore keeps both forms of every field the derivations read (`Option`, with `None` for absent). The reads `field_c || field` are modelled with JavaScript's `||`, which falls back on any falsy value.

Percentages are exact reals. JavaScript's special results (NaN, ±Infinity) are kept where a division by zero or an absent field can produce them (module `Js`). `Math.round` is `floor(x + 1/2)`.

Modules:
- `Js`, `Text`, `Lists`: JavaScript value semantics, strings, array methods.
- `Records`: the entities and the normalised reads.
- `Stats`: the shared averages and rates.
- One module per component: `GradeMatrix`, `AttendanceGrid`, `GradesPage`, `AttendancePage`, `Reports`, `Dashboard`, `Badge`, `StudentTable`, `GradePill`, `StudentsPage`, `ClassesPage`.

The matrix's running average and the two upsert handlers work step by step in the source. They are Dafny methods:
- `GradeMatrix.GetStudentAverage` runs a `while` loop, proved equal to the specification function `StudentAverage`.
- `GradesPage.UpsertGrade` and `AttendancePage.UpsertAttendance` copy the list into an array and assign one slot, or append.

Everything else is functions and lemmas.

Three behaviours of the code shape the model:
- The normalised reads are `field_c || field`: the suffixed name wins unless its value is falsy, and only then is the plain name read.
- The class average on Reports and Dashboard is the rounded mean of the raw scores of the class's grades. Assignment points play no part in it.
- Reports gives a student without grades an average of 0. Only the grade matrix returns `null` (`Option.None`) for such a student.

## Model

| member | source | states |
|---|---|---|
| Js.OrInt | src/components/pages/Reports.jsx:58 | `a \|\| b` is `a` exactly when `a` is truthy (present and non-zero), otherwise `b`, whatever `b` is |
| Js.OrString | src/components/pages/Students.jsx:37 | `a \|\| b` on strings: `a` when present and non-empty, otherwise `b` |
| Js.OrReal | src/components/organisms/GradeMatrix.jsx:103 | `a \|\| b` on numbers: a present non-zero `a`, otherwise `b` |
| Js.Round | src/components/pages/Reports.jsx:67 | `Math.round` gives the integer `r` with `r - 1/2 <= x < r + 1/2` |
| Js.RoundNumber | src/components/organisms/GradeMatrix.jsx:48 | `Math.round` keeps finiteness, rounds a finite value, and returns NaN and the infinities unchanged |
| Js.AddField | src/components/organisms/GradeMatrix.jsx:41-42 | `+=` of a field adds a present value to a finite sum; an absent field or a NaN sum gives NaN |
| Js.Divide | src/components/organisms/GradeMatrix.jsx:46 | IEEE division: the exact quotient for a non-zero divisor; for a zero divisor ±Infinity by the dividend's sign, or NaN for 0/0; NaN propagates |
| Js.Scale | src/components/organisms/GradeMatrix.jsx:46 | `* 100` scales a finite value and keeps NaN and the infinities |
| Text.LowerChar | src/components/pages/Students.jsx:57 | `toLowerCase` of one character turns a capital into the lower-case letter at the same alphabet offset (so `'A'` and `'a'` agree), leaves no upper-case letter and changes nothing else |
| Text.Lower | src/components/pages/Students.jsx:57 | `toLowerCase` keeps the length and lowers every position |
| Text.IncludesEmpty | src/components/pages/Students.jsx:57 | every string `includes("")` |
| Text.Trim | src/components/pages/Classes.jsx:35 | `trim()` returns an occurrence of `s` with only white space before and after it and none at either end; it is empty exactly when `s` is all white space |
| Text.TrimIdempotent | src/components/pages/Classes.jsx:42-45 | trimming a trimmed value changes nothing |
| Text.BeforeT | src/components/pages/Attendance.jsx:68 | `split("T")[0]` is the longest prefix without "T", followed in `s` by a "T" when shorter than `s` |
| Lists.Filter | src/components/pages/Reports.jsx:58 | `filter` keeps exactly the elements satisfying `p`, each as many times as it occurs, as a subsequence; it is empty exactly when none does |
| Lists.FilterAll | src/components/pages/Students.jsx:56-60 | filtering with a predicate every element meets returns the whole list |
| Lists.Count | src/components/pages/Reports.jsx:61 | `filter(...).length` is the number of positions whose element satisfies `p`, so at most the list length |
| Lists.FindIndex | src/components/pages/Grades.jsx:70-72 | `findIndex` finds a match exactly when one exists, and the one it finds is the first |
| Lists.FindIndexIsFirstMatch | src/components/pages/Attendance.jsx:67-69 | `findIndex` returns the position of the first match |
| Lists.Find | src/components/organisms/GradeMatrix.jsx:10 | `find` returns a match exactly when one exists, and it is the element at the first matching position |
| Lists.Insert | src/components/pages/Reports.jsx:82 | inserting into a descending list keeps it descending and adds exactly that element |
| Lists.SortDesc | src/components/pages/Reports.jsx:82 | `sort((a, b) => b.k - a.k)` returns a permutation of its input in non-increasing key order |
| Lists.Leading | src/components/pages/Reports.jsx:184 | `slice(0, n)` of a descending list is its first `min(n, length)` elements, none smaller than an element left out |
| Lists.Map | src/components/pages/Grades.jsx:85 | `map(f)` keeps the length and holds `f` of each element at its position |
| Lists.MaxWithZero | src/components/pages/Attendance.jsx:82 | `Math.max(...ids, 0)` is an upper bound of all ids, at least 0, and either 0 or one of the ids |
| Lists.NextId | src/components/pages/Attendance.jsx:82 | the appended id is `Math.max(...ids, 0) + 1`: 1, or one more than some existing id, larger than every existing id, and 1 for an empty list |
| Records.StatusEitherName | src/components/pages/Reports.jsx:61 | a status stored under `status_c` and the same status under `status` read the same |
| Records.ScoreAsWritten | src/components/pages/Reports.jsx:72 | `score_c \|\| score` reads a non-zero suffixed score, and otherwise falls to the plain score, even when the suffixed one is 0 |
| Records.Score | src/components/pages/Reports.jsx:72 | the intended read takes a present suffixed score (0 included), otherwise the plain one, and 0 for neither |
| Records.ScoreRefinesAsWritten | src/components/pages/Reports.jsx:72 | wherever the written read gives a number and no suffixed 0 is involved, the intended read gives the same number |
| Records.ZeroSuffixedScoreIsLost | src/components/pages/Reports.jsx:72 | a backend grade scored 0 reads as `undefined` through `score_c \|\| score`, but as 0 through the intended read |
| Stats.PercentOf | src/components/organisms/AttendanceGrid.jsx:25 | `total > 0 ? Math.round(present / total * 100) : 0` lies in [0, 100], is 0 for no records, and is otherwise the rounded share |
| Stats.RatioScaled | src/components/pages/Reports.jsx:148 | for `0 <= a <= b`, `a / b * 100` lies in [0, 100] and times `b` gives `100 a` |
| Stats.PercentBounds | src/components/pages/Reports.jsx:66-68 | the rounded share of present records is within half a percent of the exact share and lies in [0, 100] |
| Stats.MeanRounded | src/components/pages/Reports.jsx:71-73 | `n > 0 ? Math.round(sum / n) : 0` is 0 for no values, and otherwise `r` with `(r - 1/2) n <= sum < (r + 1/2) n` |
| Stats.MeanScore | src/components/pages/Reports.jsx:78-80 | the unrounded mean score is 0 for no grades, and otherwise times the count equals the score total |
| Stats.MeanScoreIsPercent | src/components/pages/Reports.jsx:78-80 | scores that are all in [0, 100] have their exact mean in [0, 100] |
| Stats.AverageScore | src/components/pages/Reports.jsx:71-73 | the average grade is 0 for no grades, and otherwise the mean score rounded half up |
| Stats.ScoreTotalBounds | src/components/pages/Reports.jsx:72 | the `reduce` sum of scores each in [lo, hi] lies between `lo n` and `hi n` |
| Stats.AverageScoreIsPercent | src/components/pages/Dashboard.jsx:67 | scores that are all in [0, 100] give an average grade in [0, 100] |
| Stats.ActiveCount | src/components/pages/Reports.jsx:61 | the count is the number of students with `status_c \|\| status` equal to "Active"; it is at most the number of students, 0 exactly when none is active, and all of them when all are |
| Stats.PresentRate | src/components/pages/Reports.jsx:64-68 | the attendance rate is in [0, 100], 0 for no records, and otherwise the rounded share of records whose `status_c \|\| status` is "present" |
| Stats.AverageScoreAsWritten | src/components/pages/Reports.jsx:71-73 | the average grade as written, a JavaScript number that is 0 for no grades |
| Stats.ScoreTotalAgrees | src/components/pages/Reports.jsx:72 | when every written score read yields a number and no suffixed score is 0, the written sum is the intended sum |
| Stats.AverageScoreAgrees | src/components/pages/Dashboard.jsx:67 | under the same conditions, the written average grade equals the intended one |
| Stats.ZeroScoreMakesAverageNaN | src/components/pages/Dashboard.jsx:67 | one backend grade scored 0 makes the written average NaN, while the intended average is 0 |
| Stats.ClassStudents | src/components/pages/Reports.jsx:86 | the class's students are exactly those whose `classId_c \|\| classId` is the class id, in order, each as often as it occurs in the list |
| Stats.ClassGrades | src/components/pages/Reports.jsx:87-89 | the class's grades are exactly those whose `studentId_c \|\| studentId` is the id of one of its students, in order, each as often as it occurs in the list |
| Stats.ClassAverage | src/components/pages/Reports.jsx:90-92 | the class average is the rounded mean score of exactly the class's grades, and 0 when it has none |
| Stats.ClassAverageIsPercent | src/components/pages/Dashboard.jsx:126-128 | scores that are all in [0, 100] give every class average in [0, 100] |
| GradeMatrix.GetGrade | src/components/organisms/GradeMatrix.jsx:9-12 | a cell is blank exactly when no grade has that plain student and assignment id, and otherwise shows the first such grade's score |
| GradeMatrix.EnteredScore | src/components/organisms/GradeMatrix.jsx:103 | `parseFloat(v) \|\| 0` is the parsed number, and 0 exactly when the text does not parse or parses to 0 |
| GradeMatrix.LetterFor | src/components/organisms/GradeMatrix.jsx:16-28 | the band is one of the 13 letters; it is "A+" exactly when the percentage is at least 97 and "F" exactly when it is not at least 60 (NaN included) |
| GradeMatrix.PercentageAtLeast | src/components/organisms/GradeMatrix.jsx:15 | for a positive total, `score / total * 100 >= k` is `100 score >= k total` |
| GradeMatrix.CalculateLetterGrade | src/components/organisms/GradeMatrix.jsx:14-29 | the result is one of the 13 letters; for a positive total it is "A+" exactly when `100 score >= 97 total` and "F" exactly when `100 score < 60 total`; NaN inputs give "F" |
| GradeMatrix.CutoffsInclusive | src/components/organisms/GradeMatrix.jsx:16-27 | exactly 90 is "A-", and every percentage in [87, 90) is "B+" |
| GradeMatrix.RankIsCutoffsReached | src/components/organisms/GradeMatrix.jsx:16-28 | a percentage's letter ranks as high as the number of cut-offs it reaches |
| GradeMatrix.LetterMonotone | src/components/organisms/GradeMatrix.jsx:16-28 | a higher percentage never gets a lower letter |
| GradeMatrix.GetStudentAverage | src/components/organisms/GradeMatrix.jsx:31-51 | the loop returns `StudentAverage`: `null` exactly when the student has no grade, otherwise the rounded percentage and the letter of the totals over the grades whose assignment resolves |
| GradeMatrix.TotalsSkipUnresolved | src/components/organisms/GradeMatrix.jsx:38-44 | a grade whose assignment does not resolve, wherever it stands in the list, leaves both totals as they are without it |
| GradeMatrix.TotalsOfUnresolved | src/components/organisms/GradeMatrix.jsx:38-44 | a list none of whose grades resolves has both totals 0 |
| GradeMatrix.UnresolvedGradesGiveNaN | src/components/organisms/GradeMatrix.jsx:35-49 | a student with grades, none of them for an assignment on the matrix, gets a NaN percentage with letter "F" |
| GradeMatrix.TotalsOfRecorded | src/components/organisms/GradeMatrix.jsx:35-44 | with every resolving grade scored and every assignment positive, both totals are finite, and the points total is positive exactly when some grade resolves |
| GradeMatrix.RecordedAverage | src/components/organisms/GradeMatrix.jsx:31-51 | with complete data and a resolving grade, the student's average is the average of finite totals whose points are positive |
| GradeMatrix.RecordedTotalsAverage | src/components/organisms/GradeMatrix.jsx:46-50 | for such totals, the percentage is the rounded exact ratio and the letter is banded from the unrounded ratio |
| GradeMatrix.RoundedPercentageKeepsExactLetter | src/components/organisms/GradeMatrix.jsx:46-50 | 44.8 of 50 points shows as 90 with the letter "B+" |
| AttendanceGrid.GetAttendanceStatus | src/components/organisms/AttendanceGrid.jsx:13-19 | the cell shows the status of the first record whose normalised student id and date fall on that student and day, and null when there is none |
| AttendanceGrid.NextStatus | src/components/organisms/AttendanceGrid.jsx:79-82 | a click moves present to absent, absent to late, late to excused, and anything else (no record included) to present |
| AttendanceGrid.CycleOfFour | src/components/organisms/AttendanceGrid.jsx:79-82 | four clicks bring each of the four statuses back to itself, and an empty cell starts at present |
| AttendanceGrid.AttendanceStats | src/components/organisms/AttendanceGrid.jsx:21-26 | the rate is in [0, 100], 0 for a student without records, and otherwise the rounded share of the student's records (by normalised id) whose plain status is "present" |
| GradesPage.SelectClass | src/components/pages/Grades.jsx:59-66 | with a class selected, the shown students and assignments are exactly those whose plain `classId` is that class, in order and each as often as it occurs; with none selected the view is unchanged |
| GradesPage.Max | src/components/pages/Grades.jsx:85 | `Math.max(...ids)` of a non-empty list is an upper bound that is one of the ids |
| GradesPage.NextGradeIdAsWritten | src/components/pages/Grades.jsx:85 | the written new id is -Infinity for no grades, and otherwise one more than some existing id and above every id (so 0 or less when every id is negative) |
| GradesPage.EmptyGradeListGetsNegInfinityId | src/components/pages/Grades.jsx:85 | on an empty grade list the written id is -Infinity where the corrected id is 1 |
| GradesPage.NextIdAgreesWithWritten | src/components/pages/Grades.jsx:85 | when some id is non-negative, the written id equals the corrected one |
| GradesPage.SetScore | src/components/pages/Grades.jsx:76-80 | the copy has the same length, the grade at `k` carries the new score with its other fields unchanged, and every other grade is unchanged |
| GradesPage.UpsertGrade | src/components/pages/Grades.jsx:68-94 | on a match, only the first matching grade's score changes; otherwise exactly one grade with the given ids, score and a fresh id is appended; either way the cell then shows the new score and distinct ids stay distinct |
| AttendancePage.SelectClass | src/components/pages/Attendance.jsx:56-61 | with a class selected, the shown students are exactly those whose plain `classId` is that class, in order and each as often as it occurs; with none selected they are unchanged |
| AttendancePage.SetStatus | src/components/pages/Attendance.jsx:73-77 | the copy has the same length, the record at `k` carries the new status with its other fields unchanged, and every other record is unchanged |
| AttendancePage.UpsertAttendance | src/components/pages/Attendance.jsx:63-91 | on a match (plain student id and date prefix), only that record's status changes; otherwise exactly one record of the selected class with the status and an id above every id and 0 is appended; the day's first entry then has the status, distinct ids stay distinct, and on plain-field data the grid shows the new status |
| AttendancePage.PlainKeysAgree | src/components/pages/Attendance.jsx:68 | on records without suffixed fields, the page's lookup and the grid's lookup find the same first record |
| Reports.FilteredStudents | src/components/pages/Reports.jsx:56-58 | "all" keeps every student; a class keeps exactly the students whose `classId_c \|\| classId` is that class, in order and each as often as it occurs |
| Reports.ActiveRing | src/components/pages/Reports.jsx:148 | the active ring is NaN for an empty selection, and otherwise a finite percentage in [0, 100] equal to `100 active / total` |
| Reports.ComputeOverview | src/components/pages/Reports.jsx:56-73 | the total is the selection's size; active is the selection's active count, at most total; the attendance rate is in [0, 100] and the rounded present share of all records; the average grade is the rounded mean of all grades |
| Reports.GradesOf | src/components/pages/Reports.jsx:77 | a student's grades are exactly those whose `studentId_c \|\| studentId` is the student's id, in order, each as often as it occurs in the list |
| Reports.StudentMean | src/components/pages/Reports.jsx:77-80 | a student's average is 0 without grades, and otherwise the exact mean score of the student's grades |
| Reports.StudentMeanIsPercent | src/components/pages/Reports.jsx:78-80 | scores that are all in [0, 100] give every student average in [0, 100] |
| Reports.StudentRows | src/components/pages/Reports.jsx:76-81 | one row per selected student, in order, carrying that student's average |
| Reports.StudentGradeAverages | src/components/pages/Reports.jsx:76-82 | the ranked list has one row per selected student, is a permutation of the rows, is sorted by non-increasing average, and each row carries its student's average |
| Reports.TopPerformers | src/components/pages/Reports.jsx:184 | the first five ranked students, none below a student left out |
| Reports.ClassRowOf | src/components/pages/Reports.jsx:85-93 | a class's row counts its students and carries the rounded mean of exactly its grades |
| Reports.ClassRows | src/components/pages/Reports.jsx:85-93 | one row per class, in order |
| Reports.ClassPerformance | src/components/pages/Reports.jsx:85-94 | the class list is a permutation of the rows of every class, sorted by non-increasing average, each row carrying its class's figures |
| Reports.TopClasses | src/components/pages/Reports.jsx:218 | the first five ranked classes, none below a class left out |
| Reports.EveryClassListed | src/components/pages/Reports.jsx:85-94 | every class appears in the performance list with its own figures |
| Dashboard.TodayAttendance | src/components/pages/Dashboard.jsx:58-62 | today's records are exactly those with a non-empty normalised date whose part before "T" is today, in order and each as often as it occurs |
| Dashboard.ComputeSummary | src/components/pages/Dashboard.jsx:53-67 | totals are the list sizes; active is the number of active students, at most total, so inactive is not negative; present today is at most recorded today; the rate is 0 with nothing recorded and otherwise the rounded present share; the average grade is the rounded mean |
| Dashboard.ClassCards | src/components/pages/Dashboard.jsx:121-128 | cards for the first four classes, in order, each counting its students and carrying the rounded mean of exactly its grades |
| Dashboard.CardsAgreeWithReports | src/components/pages/Dashboard.jsx:121-128 | every class card shows the same count and average as that class's row on the Reports page |
| StudentTable.StatusVariant | src/components/organisms/StudentTable.jsx:8-15 | Active is success, Inactive is error, Suspended is warning, and exactly every other value (absent included) is default |
| StudentTable.StatusesDistinguished | src/components/organisms/StudentTable.jsx:10-12 | the three statuses get three different variants, none of them default |
| GradePill.GradeVariant | src/components/molecules/GradePill.jsx:6-29 | the A family is success, B info, C warning, D accent, F error, each exactly; anything else is default |
| GradePill.EveryLetterColoured | src/components/molecules/GradePill.jsx:26-27 | no letter the matrix computes gets the default variant |
| GradePill.ColourFollowsRank | src/components/molecules/GradePill.jsx:6-29 | a better letter never gets the colour of a lower family |
| GradePill.ScoreSuffix | src/components/molecules/GradePill.jsx:36 | `score && ...` renders the "(n%)" label exactly when the percentage is neither 0 nor NaN; otherwise the falsy number itself is printed, "0" or "NaN" |
| GradePill.IntendedSuffix | src/components/molecules/GradePill.jsx:36 | the intended suffix is the label for a percentage that is neither 0 nor NaN, and nothing otherwise |
| GradePill.IntendedSuffixAgrees | src/components/molecules/GradePill.jsx:36 | the written and intended suffixes show the same label whenever either shows one, and differ only where the written one prints a number |
| GradePill.ZeroAveragePrintsZero | src/components/molecules/GradePill.jsx:36 | a student with no points scored on positive totals gets "F" followed by a printed "0", where the intended pill shows "F" alone |
| GradePill.UnresolvedGradesPrintNaN | src/components/molecules/GradePill.jsx:36 | a student whose grades are all for assignments off the matrix gets "F" followed by a printed "NaN", where the intended pill shows "F" alone |
| StudentsPage.ClassNameFor | src/components/pages/Students.jsx:37 | the name is never empty; it is "No Class" when no class matches; otherwise it is the first matching class's `name_c \|\| name` when truthy, else "No Class" |
| StudentsPage.Enrich | src/components/pages/Students.jsx:35-38 | enrichment keeps every student in order and adds only the class name |
| StudentsPage.Search | src/components/pages/Students.jsx:55-62 | the result is a subsequence holding exactly the students whose lowered full name, email or grade band includes the lowered term, each as often as it occurs; an empty term keeps all |
| StudentsPage.SearchIdempotent | src/components/pages/Students.jsx:55-62 | searching the result again with the same term changes nothing |
| ClassesPage.EnrollmentCount | src/components/pages/Classes.jsx:82 | the count is the number of students whose plain `classId` is the class's id: at most the number of students, and 0 exactly when there is none |
| ClassesPage.WithEnrollment | src/components/pages/Classes.jsx:80-83 | each class, in order, with its enrollment count |
| ClassesPage.CreatePayload | src/components/pages/Classes.jsx:34-46 | nothing is sent exactly when some field trims to empty; otherwise the payload is the four trimmed values, none empty |
| ClassesPage.PayloadStable | src/components/pages/Classes.jsx:41-46 | a payload typed back into the form validates to itself |
| ClassesPage.AddClass | src/components/pages/Classes.jsx:31-63 | an incomplete form changes nothing and warns; a create that throws changes nothing; a create that resolves appends to both lists a row with count 0 (the class, or a bare row when it resolved to `undefined`), resets the form, closes the modal and reports success |
| ClassesPage.UndefinedCreateAddsBareRow | src/components/pages/Classes.jsx:49-58 | a create resolving to `undefined` reports success and appends a row without a class, on which the class search cannot run for any term |
| ClassesPage.SuffixedClassBreaksSearch | src/components/pages/Classes.jsx:100-105 | a class with `name_c` but no plain `name`, as every backend class is, makes the search throw for any term |
| ClassesPage.AddClassKeepsCounts | src/components/pages/Classes.jsx:49-52 | when no student is in the new class yet, every count in the list stays right after the add |
| ClassesPage.Search | src/components/pages/Classes.jsx:100-107 | the result is a subsequence holding exactly the rows whose class's lowered name, subject or period includes the lowered term, each as often as it occurs; an empty term keeps all |
| ClassesPage.SearchIdempotent | src/components/pages/Classes.jsx:100-107 | searching the result again with the same term changes nothing |

## Left out

- The service layer (`src/services/api/*.js`) is not part of this model. Loading, `Promise.all`, loading and error states, toasts, `window.confirm` and effect scheduling are left out too. The class service's create call is a parameter of `ClassesPage.AddClass`: it throws, resolves to a class, or resolves to `undefined`.
- Dates are strings. A record falls on a day when the part of its timestamp before "T" is that day. The clicked day's ISO timestamp and today's date are parameters. Time zones, `Date` objects, `isSameDay` and the month navigation (`days.slice(0, 15)`, `addMonths`/`subMonths`) are left out.
- AttendanceGrid.GetAttendanceStatus: the grid compares days with `isSameDay` on `new Date(...)`. The model compares the date prefix, which is the same day only for timestamps in the viewer's time zone.
- Text.Lower: `toLowerCase` is modelled on ASCII letters only. Unicode case mapping is left out.
- Text.Trim: only the ASCII white-space characters are trimmed. Unicode spaces and line terminators are left out.
- Js.Divide: the sign of zero is not modelled. Every zero divisor is +0.
- GradeMatrix.EnteredScore: the parsed number is a parameter. `parseFloat`'s text grammar and its Infinity result are left out.
- Lists.SortDesc: the built-in sort's stability is not proved. The model proves the order and the permutation.
- Reports.StudentGradeAverages: averages are computed with the corrected `Records.Score`, so they are never NaN. The comparator's behaviour on NaN is not modelled.
- Reports.ClassPerformance: same as above.
- Reports.ComputeOverview: the average grade uses the corrected `Records.Score`. The written read is modelled separately, in `Stats.AverageScoreAsWritten` (see Findings).
- Dashboard.ComputeSummary: same as above.
- GradesPage.UpsertGrade: the appended id is the corrected `Lists.NextId`, not the written `Math.max(...ids) + 1`, which is -Infinity on an empty list and can be 0 or less when every id is negative (see Findings).
- Reports.StudentMean: the mean uses the corrected `Records.Score`, not the written `score_c || score` read at Reports.jsx:79 (see Findings).
- Reports.ClassRowOf: the class average uses the corrected `Records.Score`, not the written read at Reports.jsx:91 (see Findings).
- Stats.ClassAverage: uses the corrected `Records.Score`, not the written read at Reports.jsx:91 and Dashboard.jsx:127 (see Findings).
- Dashboard.ClassCards: the card averages use the corrected `Records.Score`, not the written read at Dashboard.jsx:127 (see Findings).
- A field holding `null` is not modelled: `None` is an `undefined` field, for which `0 + undefined` is NaN and `${undefined}` is "undefined".
- Rendered text is left out: names in a row, the "(n pts)" header, `Math.round(student.average)` in the top list, and the digits of the pill's "(n%)" label, which the model keeps as the number shown.
- The ProgressRing geometry is left out.
- The default class selection on load (`classesData[0].Id`) is left out. The selected class is a parameter of the class-filter effects, and `parseInt` of the selected value is taken as the id.
- On the Classes page, the search effect runs again whenever the class list changes. The model gives the handler's direct update of both lists and the search as a separate function, so the re-run after an add is not composed.
- StudentsPage.Search: when the full name does not match, the filter calls `toLowerCase` on the email, and it does the same on the grade band when neither matches. A missing field there throws a TypeError. The search requires that this cannot happen, so the throw itself is not modelled.
- ClassesPage.Search: the filter lowers the plain `name`, `subject` and `period`, and the search requires them present, so the throw itself is not modelled. Classes loaded from the backend carry only `name_c`, `subject_c`, `period_c` and `room_c` (classService.js fetches only those fields), so `classItem.name.toLowerCase()` throws on every such class, even for the empty term. The requires therefore holds only for fixture data; `ClassesPage.SuffixedClassBreaksSearch` states the failing case.
- AttendancePage.UpsertAttendance: the lookup reads `a.date.split` on every record of the student it reaches, so a record without a date there throws. The method requires that no such record comes before the match, so the throw itself is not modelled.
- The students' save and delete handlers and the student modal are not part of this model.

## Findings

| source | as written | input that shows it | evidently intended | confidence | as-written member | corrected member |
|---|---|---|---|---|---|---|
| src/components/pages/Reports.jsx:72 | every score is read as `g.score_c \|\| g.score`, so a suffixed score of 0 falls through to the plain field, which backend records lack; the sum becomes NaN and the rounded average NaN (the same read is at Reports.jsx:79, Reports.jsx:91, Dashboard.jsx:67 and Dashboard.jsx:127) | one backend grade `{Id: 1, studentId_c: 7, score_c: 0}` | a present suffixed score, 0 included, is the score; the average of that list is 0 | not executed | Stats.AverageScoreAsWritten, with the counterexample Stats.ZeroScoreMakesAverageNaN | Stats.AverageScore, which agrees with the written average wherever no suffixed 0 is involved (Stats.AverageScoreAgrees); the same corrected read is used by Reports.StudentMean, Reports.ClassRowOf, Stats.ClassAverage and Dashboard.ClassCards |
| src/components/pages/Grades.jsx:85 | the new grade's id is `Math.max(...prevGrades.map(g => g.Id)) + 1`, which is `-Infinity` when the list is empty | the first grade entered on an empty grade list | an id above every existing id and at least 1, as the attendance page computes with `Math.max(...ids, 0) + 1` | not executed | GradesPage.NextGradeIdAsWritten, with the counterexample GradesPage.EmptyGradeListGetsNegInfinityId | Lists.NextId, used by GradesPage.UpsertGrade, which agrees with the written id wherever some id is non-negative (GradesPage.NextIdAgreesWithWritten) |
| src/components/molecules/GradePill.jsx:36 | the suffix is `score && "(score%)"` as a template literal; for a falsy score the expression is the number itself, which React renders, so the pill reads "F 0" or "F NaN" | a student with one grade scored 0 of 10 points (pill "F 0"), or with grades only for assignments off the matrix (pill "F NaN") | no suffix at all when the percentage is 0 or NaN | not executed | GradePill.ScoreSuffix, with GradePill.ZeroAveragePrintsZero and GradePill.UnresolvedGradesPrintNaN | GradePill.IntendedSuffix, which shows the same label wherever the written suffix shows one (GradePill.IntendedSuffixAgrees) |

=== FILE: attendance_grid.dfy ===
/**
 * The attendance grid: the status shown for a student on a day, the click
 * cycle of a status dot, and a student's attendance rate
 * (src/components/organisms/AttendanceGrid.jsx). A calendar day is its
 * "YYYY-MM-DD" string, and a record falls on it when its timestamp starts
 * with that date.
 */
module AttendanceGrid {
  import opened Js
  import opened Records
  import Text
  import Lists
  import Stats

  /** The record's date (`date_c || date`) falls on `day`; a record with no date falls on none. */
  predicate OnDay(a: AttendanceRecord, day: string) {
    RecordDateOf(a).Some? && Text.BeforeT(RecordDateOf(a).value) == day
  }

  /** The record is the one the grid shows for this student and day. */
  predicate IsEntryOf(a: AttendanceRecord, studentId: int, day: string) {
    RecordStudentIdOf(a) == Some(studentId) && OnDay(a, day)
  }

  /**
   * `getAttendanceStatus`: the plain `status` of the first record of this student on this day;
   * `None` (null) when there is no such record. A record without a plain status also reads
   * as `None`: the dot and the click cycle treat `undefined` and `null` alike.
   */
  function GetAttendanceStatus(records: seq<AttendanceRecord>, studentId: int, day: string): (r: Option<string>)
    ensures (forall i :: 0 <= i < |records| ==> !IsEntryOf(records[i], studentId, day)) ==> r.None?
    ensures forall i :: Lists.FirstMatch(records, a => IsEntryOf(a, studentId, day), i) ==> r == records[i].status
  {
    match Lists.FindIndex(records, a => IsEntryOf(a, studentId, day))
    case None => None
    case Some(i) => records[i].status
  }

  /** The status a click on a dot sets: present, absent, late, excused, and round again. */
  function NextStatus(current: Option<string>): (r: string)
    ensures current == Some("present") ==> r == "absent"
    ensures current == Some("absent") ==> r == "late"
    ensures current == Some("late") ==> r == "excused"
    ensures current !in {Some("present"), Some("absent"), Some("late")} ==> r == "present"
  {
    if current == Some("present") then "absent"
    else if current == Some("absent") then "late"
    else if current == Some("late") then "excused"
    else "present"
  }

  const Statuses: set<string> := {"present", "absent", "late", "excused"}

  /** Four clicks bring each of the four statuses back to itself; a day without a record starts at "present". */
  lemma CycleOfFour(s: string)
    requires s in Statuses
    ensures NextStatus(Some(NextStatus(Some(NextStatus(Some(NextStatus(Some(s)))))))) == s
    ensures NextStatus(None) == "present"
  {
  }

  /** The records of one student, by the normalised `studentId_c || studentId`. */
  function RecordsOf(records: seq<AttendanceRecord>, studentId: int): seq<AttendanceRecord> {
    Lists.Filter(records, (a: AttendanceRecord) => RecordStudentIdOf(a) == Some(studentId))
  }

  /** Present-ness as the grid tests it: the plain `status` field only. */
  predicate IsPresent(a: AttendanceRecord) {
    a.status == Some("present")
  }

  /**
   * `getAttendanceStats`: the whole percentage of the student's records that are present,
   * rounded; 0 for a student without records.
   */
  function AttendanceStats(records: seq<AttendanceRecord>, studentId: int): (r: int)
    ensures 0 <= r <= 100
    ensures (forall i :: 0 <= i < |records| ==> RecordStudentIdOf(records[i]) != Some(studentId)) ==> r == 0
    ensures var mine := RecordsOf(records, studentId);
      |mine| > 0 ==> Stats.RoundedShare(r, Lists.Count(mine, IsPresent), |mine|)
  {
    var mine := RecordsOf(records, studentId);
    Stats.PercentOf(Lists.Count(mine, IsPresent), |mine|)
  }
}

=== FILE: attendance_page.dfy ===
/**
 * The Attendance page: the students of the selected class, and the local
 * update of the attendance list when a status dot is clicked
 * (src/components/pages/Attendance.jsx). The page matches records on their
 * plain `studentId` and `date` fields.
 */
module AttendancePage {
  import opened Js
  import opened Records
  import Text
  import Lists
  import AttendanceGrid

  /**
   * The class-filter effect: with a class selected, the students whose plain `classId` is
   * that class, in order; with nothing selected the shown list is left as it was.
   */
  function SelectClass(selected: Option<int>, students: seq<Student>, shown: seq<Student>): (r: seq<Student>)
    ensures selected.None? ==> r == shown
    ensures selected.Some? ==>
      && (forall i :: 0 <= i < |r| ==> r[i] in students && r[i].classId == selected)
      && (forall i :: 0 <= i < |students| && students[i].classId == selected ==> students[i] in r)
      && Lists.IsSubsequence(r, students)
      && (forall s | s in students :: multiset(r)[s] == if s.classId == selected then multiset(students)[s] else 0)
      && multiset(r) <= multiset(students)
  {
    if selected.None? then shown
    else Lists.Filter(students, (s: Student) => s.classId == selected)
  }

  /** The record the page updates for this student on this day (`a.date.split("T")[0]`). */
  predicate IsStoredEntry(a: AttendanceRecord, studentId: int, day: string) {
    a.studentId == Some(studentId) && a.date.Some? && Text.BeforeT(a.date.value) == day
  }

  /**
   * The lookup reads `a.date` of every record of this student it reaches, so such a record
   * without a date must come after the first match (otherwise the lookup throws).
   */
  predicate LookupDefined(records: seq<AttendanceRecord>, studentId: int, day: string) {
    var k := ExistingIndex(records, studentId, day);
    forall i :: 0 <= i < |records| && records[i].studentId == Some(studentId) && records[i].date.None? ==>
      k.Some? && k.value < i
  }

  /** `records.map(x => x.Id)`. */
  function IdsOf(records: seq<AttendanceRecord>): seq<int> {
    Lists.Map(records, (x: AttendanceRecord) => x.Id)
  }

  function ExistingIndex(records: seq<AttendanceRecord>, studentId: int, day: string): Option<nat> {
    Lists.FindIndex(records, (a: AttendanceRecord) => IsStoredEntry(a, studentId, day))
  }

  /** Records as fixture data holds them: no suffixed student id or date. */
  predicate PlainOnly(records: seq<AttendanceRecord>) {
    forall i :: 0 <= i < |records| ==> records[i].studentIdC.None? && records[i].dateC.None?
  }

  /**
   * `handleAttendanceChange`: for the clicked day (`timestamp`, its ISO form), copies the list
   * and sets the `status` of the first record of this student on that day; with none, appends
   * a record of the selected class whose id exceeds every existing id (and 0). On fixture data
   * the grid then shows the new status in that cell.
   */
  method UpsertAttendance(records: seq<AttendanceRecord>, studentId: int, timestamp: string, status: string,
                          classId: int)
    returns (updated: seq<AttendanceRecord>)
    requires LookupDefined(records, studentId, Text.BeforeT(timestamp))
    ensures var k := ExistingIndex(records, studentId, Text.BeforeT(timestamp));
      k.Some? ==>
        && |updated| == |records|
        && updated[k.value] == records[k.value].(status := Some(status))
        && forall j :: 0 <= j < |records| && j != k.value ==> updated[j] == records[j]
    ensures ExistingIndex(records, studentId, Text.BeforeT(timestamp)).None? ==>
      && updated == records + [AttendanceRecord(Lists.NextId(IdsOf(records)), None, Some(studentId), Some(classId),
                                                None, Some(timestamp), None, Some(status))]
      && forall j :: 0 <= j < |records| ==> records[j].Id != updated[|records|].Id
    ensures var k := ExistingIndex(updated, studentId, Text.BeforeT(timestamp));
      k.Some? && updated[k.value].status == Some(status)
    ensures Lists.Distinct(IdsOf(records)) ==> Lists.Distinct(IdsOf(updated))
    ensures PlainOnly(records) ==>
      AttendanceGrid.GetAttendanceStatus(updated, studentId, Text.BeforeT(timestamp)) == Some(status)
  {
    var day := Text.BeforeT(timestamp);
    var key := (a: AttendanceRecord) => IsStoredEntry(a, studentId, day);
    var existing := ExistingIndex(records, studentId, day);
    var k: nat;
    if existing.Some? {
      k := existing.value;
      updated := SetStatus(records, k, status);
    } else {
      var record := AttendanceRecord(Lists.NextId(IdsOf(records)), None, Some(studentId), Some(classId),
                                     None, Some(timestamp), None, Some(status));
      updated := records + [record];
      k := |records|;
      assert updated[..|records|] == records;
    }
    assert Lists.FirstMatch(updated, key, k);
    assert PlainOnly(records) ==> PlainOnly(updated);
    UpdatedEntryIsShown(updated, studentId, day, k, status);
    IdsKept(records, updated);
  }

  /** Rewriting records in place or appending one with a fresh id keeps the ids distinct. */
  lemma IdsKept(records: seq<AttendanceRecord>, updated: seq<AttendanceRecord>)
    requires |records| <= |updated| <= |records| + 1
    requires forall j :: 0 <= j < |records| ==> updated[j].Id == records[j].Id
    requires |updated| > |records| ==> forall j :: 0 <= j < |records| ==> records[j].Id != updated[|records|].Id
    ensures Lists.Distinct(IdsOf(records)) ==> Lists.Distinct(IdsOf(updated))
  {
  }

  /** The record the update wrote is the first entry for the cell, and on fixture data the grid shows it. */
  lemma UpdatedEntryIsShown(updated: seq<AttendanceRecord>, studentId: int, day: string, k: nat, status: string)
    requires Lists.FirstMatch(updated, (a: AttendanceRecord) => IsStoredEntry(a, studentId, day), k)
    requires updated[k].status == Some(status)
    ensures ExistingIndex(updated, studentId, day) == Some(k)
    ensures PlainOnly(updated) ==> AttendanceGrid.GetAttendanceStatus(updated, studentId, day) == Some(status)
  {
    Lists.FindIndexIsFirstMatch(updated, (a: AttendanceRecord) => IsStoredEntry(a, studentId, day), k);
    if PlainOnly(updated) {
      PlainKeysAgree(updated, studentId, day, k);
    }
  }

  /** `[...records]` with the record at `k` replaced by a copy carrying the new `status`. */
  method SetStatus(records: seq<AttendanceRecord>, k: nat, status: string) returns (updated: seq<AttendanceRecord>)
    requires k < |records|
    ensures |updated| == |records|
    ensures updated[k] == records[k].(status := Some(status))
    ensures forall j :: 0 <= j < |records| && j != k ==> updated[j] == records[j]
  {
    var copy := new AttendanceRecord[|records|](i requires 0 <= i < |records| => records[i]);
    copy[k] := copy[k].(status := Some(status));
    updated := copy[..];
  }

  /**
   * On records without suffixed fields, the grid's cell lookup and the page's update lookup
   * find the same first record.
   */
  lemma PlainKeysAgree(records: seq<AttendanceRecord>, studentId: int, day: string, k: nat)
    requires forall i :: 0 <= i < |records| ==> records[i].studentIdC.None? && records[i].dateC.None?
    requires Lists.FirstMatch(records, (a: AttendanceRecord) => IsStoredEntry(a, studentId, day), k)
    ensures Lists.FirstMatch(records, (a: AttendanceRecord) => AttendanceGrid.IsEntryOf(a, studentId, day), k)
  {
    forall i | 0 <= i <= k
      ensures AttendanceGrid.IsEntryOf(records[i], studentId, day) <==> IsStoredEntry(records[i], studentId, day)
    {
      assert RecordStudentIdOf(records[i]) == records[i].studentId;
      assert RecordDateOf(records[i]) == records[i].date;
    }
  }
}

=== FILE: badge.dfy ===
/** The colour variants of the badge component (src/components/atoms/Badge.jsx is not part of this model). */
module Badge {
  datatype Variant = Default | Primary | Success | Info | Warning | Accent | Error
}

=== FILE: classes_page.dfy ===
/**
 * The Classes page: enrollment counts, the add-class form and its handler,
 * and the class search (src/components/pages/Classes.jsx). The create call
 * to the class service is not modelled: its outcome is a parameter of the
 * handler.
 */
module ClassesPage {
  import opened Js
  import opened Records
  import Text
  import Lists

  /**
   * A row of the class list: a class with the number of students enrolled in it, or the
   * `{ enrollmentCount: 0 }` object the add handler builds from a create that resolved to
   * `undefined`, which has no class fields at all.
   */
  datatype ClassRow = ClassRow(cls: Class, enrollmentCount: nat) | Bare(enrollmentCount: nat)

  /** The students whose plain `classId` is the class's id. */
  function EnrollmentCount(students: seq<Student>, classId: int): (n: nat)
    ensures n <= |students|
    ensures n == 0 <==> forall i :: 0 <= i < |students| ==> students[i].classId != Some(classId)
    ensures n == |set i | 0 <= i < |students| && students[i].classId == Some(classId)|
  {
    var enrolled := (s: Student) => s.classId == Some(classId);
    assert Lists.Matching(students, enrolled) == set i | 0 <= i < |students| && students[i].classId == Some(classId);
    Lists.Count(students, enrolled)
  }

  /** Every row's count is the number of students enrolled in its class. */
  predicate CountsMatch(rows: seq<ClassRow>, students: seq<Student>) {
    forall i :: 0 <= i < |rows| && rows[i].ClassRow? ==> rows[i].enrollmentCount == EnrollmentCount(students, rows[i].cls.Id)
  }

  /** `classesWithEnrollment`: each class, in order, with its count. */
  function WithEnrollment(classes: seq<Class>, students: seq<Student>): (r: seq<ClassRow>)
    ensures |r| == |classes|
    ensures forall i :: 0 <= i < |r| ==> r[i].ClassRow? && r[i].cls == classes[i]
    ensures CountsMatch(r, students)
  {
    seq(|classes|, i requires 0 <= i < |classes| => ClassRow(classes[i], EnrollmentCount(students, classes[i].Id)))
  }

  /** The add-class form. */
  datatype Form = Form(name: string, subject: string, period: string, room: string)

  const EmptyForm := Form("", "", "", "")

  /** The form passes validation: no field is blank after trimming. */
  predicate IsComplete(f: Form) {
    Text.Trim(f.name) != [] && Text.Trim(f.subject) != [] && Text.Trim(f.period) != [] && Text.Trim(f.room) != []
  }

  /** What is sent to the class service. */
  datatype Payload = Payload(name: string, subject: string, period: string, room: string)

  /**
   * The validated payload: nothing for a form with a blank field, otherwise the four trimmed
   * values, none of them empty or padded.
   */
  function CreatePayload(f: Form): (r: Option<Payload>)
    ensures r.None? <==> !IsComplete(f)
    ensures r.Some? ==> r.value == Payload(Text.Trim(f.name), Text.Trim(f.subject), Text.Trim(f.period), Text.Trim(f.room))
    ensures r.Some? ==> r.value.name != [] && r.value.subject != [] && r.value.period != [] && r.value.room != []
  {
    if IsComplete(f) then Some(Payload(Text.Trim(f.name), Text.Trim(f.subject), Text.Trim(f.period), Text.Trim(f.room)))
    else None
  }

  /** A payload typed back into the form validates to itself. */
  lemma PayloadStable(f: Form)
    requires CreatePayload(f).Some?
    ensures var p := CreatePayload(f).value; CreatePayload(Form(p.name, p.subject, p.period, p.room)) == Some(p)
  {
    Text.TrimIdempotent(f.name);
    Text.TrimIdempotent(f.subject);
    Text.TrimIdempotent(f.period);
    Text.TrimIdempotent(f.room);
  }

  /** The page state the handler changes. */
  datatype Page = Page(classes: seq<ClassRow>, filtered: seq<ClassRow>, form: Form, showAddModal: bool)

  /** The toast the handler shows. */
  datatype Notice = FillAllFields | Created | CreateFailed

  /**
   * How `classService.create` settles: it throws (the request or a record failed with a
   * message), resolves to the created class, or resolves to `undefined` (no `results` in the
   * response, or no successful record and no failure message).
   */
  datatype CreateOutcome = Threw | Resolved(created: Class) | ResolvedUndefined

  /**
   * `handleAddClass`: an incomplete form is refused and nothing is sent; otherwise the payload
   * is sent and the handler awaits `outcome`. A throw changes nothing; any resolved value,
   * `undefined` included, is spread into a row with no students that is appended to both
   * lists, and the form is reset and closed with a success toast.
   */
  function AddClass(page: Page, outcome: CreateOutcome): (r: (Page, Notice))
    ensures !IsComplete(page.form) ==> r == (page, FillAllFields)
    ensures IsComplete(page.form) && outcome.Threw? ==> r == (page, CreateFailed)
    ensures IsComplete(page.form) && !outcome.Threw? ==>
      var row := if outcome.Resolved? then ClassRow(outcome.created, 0) else Bare(0);
      && r.1 == Created
      && r.0.classes == page.classes + [row]
      && r.0.filtered == page.filtered + [row]
      && r.0.form == EmptyForm && !r.0.showAddModal
  {
    match CreatePayload(page.form)
    case None => (page, FillAllFields)
    case Some(_) =>
      match outcome
      case Threw => (page, CreateFailed)
      case Resolved(c) => Append(page, ClassRow(c, 0))
      case ResolvedUndefined => Append(page, Bare(0))
  }

  /** The page after a create: the row on both lists, the form reset and the modal closed. */
  function Append(page: Page, row: ClassRow): (Page, Notice) {
    (Page(page.classes + [row], page.filtered + [row], EmptyForm, false), Created)
  }

  /**
   * A create that resolves to `undefined` is reported as a success and appends a row without
   * a name, so the search, which runs again whenever the list changes, throws on it whatever
   * the term.
   */
  lemma UndefinedCreateAddsBareRow(page: Page, term: string)
    requires IsComplete(page.form)
    ensures var r := AddClass(page, ResolvedUndefined);
      && r.1 == Created
      && r.0.classes[|r.0.classes| - 1] == Bare(0)
      && !(forall i :: 0 <= i < |r.0.classes| ==> RowSearchable(r.0.classes[i], term))
  {
    var rows := AddClass(page, ResolvedUndefined).0.classes;
    assert !RowSearchable(rows[|rows| - 1], term);
  }

  /** Appending a created class with count 0 keeps every count right when no student is in it yet. */
  lemma AddClassKeepsCounts(page: Page, outcome: CreateOutcome, students: seq<Student>)
    requires CountsMatch(page.classes, students)
    requires outcome.Resolved? ==> forall i :: 0 <= i < |students| ==> students[i].classId != Some(outcome.created.Id)
    ensures CountsMatch(AddClass(page, outcome).0.classes, students)
  {
    if IsComplete(page.form) && !outcome.Threw? {
      var row := if outcome.Resolved? then ClassRow(outcome.created, 0) else Bare(0);
      if outcome.Resolved? {
        assert EnrollmentCount(students, outcome.created.Id) == 0;
      }
      AppendKeepsCounts(page.classes, row, students);
    } else {
      assert AddClass(page, outcome).0 == page;
    }
  }

  lemma AppendKeepsCounts(rows: seq<ClassRow>, row: ClassRow, students: seq<Student>)
    requires CountsMatch(rows, students)
    requires row.ClassRow? ==> row.enrollmentCount == EnrollmentCount(students, row.cls.Id)
    ensures CountsMatch(rows + [row], students)
  {
    var after := rows + [row];
    forall i | 0 <= i < |after| && after[i].ClassRow?
      ensures after[i].enrollmentCount == EnrollmentCount(students, after[i].cls.Id)
    {
      if i < |rows| {
        assert after[i] == rows[i];
      }
    }
  }

  /** The lowered term occurs in the lowered name, subject or period (an absent field matches nothing). */
  predicate Matches(c: Class, term: string) {
    var t := Text.Lower(term);
    || (c.name.Some? && Text.Includes(Text.Lower(c.name.value), t))
    || (c.subject.Some? && Text.Includes(Text.Lower(c.subject.value), t))
    || (c.period.Some? && Text.Includes(Text.Lower(c.period.value), t))
  }

  /**
   * The filter lowers the plain `name` of every class, the `subject` when the name does not
   * match and the `period` when neither does; a missing one there makes it throw.
   */
  predicate Searchable(c: Class, term: string) {
    var t := Text.Lower(term);
    && c.name.Some?
    && (|| Text.Includes(Text.Lower(c.name.value), t)
        || (c.subject.Some? && (Text.Includes(Text.Lower(c.subject.value), t) || c.period.Some?)))
  }

  /** A row with a class the filter can lower; the bare row has no `name` and makes it throw. */
  predicate RowSearchable(row: ClassRow, term: string) {
    row.ClassRow? && Searchable(row.cls, term)
  }

  /**
   * A class loaded from the backend carries `name_c` but no plain `name`, so the search
   * cannot run on its row, whatever the term.
   */
  lemma SuffixedClassBreaksSearch(c: Class, count: nat, term: string)
    requires c.nameC.Some? && c.name.None?
    ensures !RowSearchable(ClassRow(c, count), term)
  {
  }

  /** The row holds a class that matches the term. */
  predicate RowMatches(row: ClassRow, term: string) {
    row.ClassRow? && Matches(row.cls, term)
  }

  /** The search: the rows whose class matches the term, in order; an empty term keeps them all. */
  function Search(rows: seq<ClassRow>, term: string): (r: seq<ClassRow>)
    requires forall i :: 0 <= i < |rows| ==> RowSearchable(rows[i], term)
    ensures Lists.IsSubsequence(r, rows)
    ensures forall row | row in rows :: multiset(r)[row] == if RowMatches(row, term) then multiset(rows)[row] else 0
    ensures multiset(r) <= multiset(rows)
    ensures forall i :: 0 <= i < |r| ==> RowMatches(r[i], term)
    ensures forall i :: 0 <= i < |rows| && RowMatches(rows[i], term) ==> rows[i] in r
    ensures term == [] ==> r == rows
  {
    if term == [] then
      forall i | 0 <= i < |rows| ensures RowMatches(rows[i], term) {
        assert RowSearchable(rows[i], term);
        Text.IncludesEmpty(Text.Lower(rows[i].cls.name.value));
      }
      Lists.FilterAll(rows, (row: ClassRow) => RowMatches(row, term));
      Lists.Filter(rows, (row: ClassRow) => RowMatches(row, term))
    else
      Lists.Filter(rows, (row: ClassRow) => RowMatches(row, term))
  }

  /** Searching the result again with the same term changes nothing. */
  lemma SearchIdempotent(rows: seq<ClassRow>, term: string)
    requires forall i :: 0 <= i < |rows| ==> RowSearchable(rows[i], term)
    ensures var once := Search(rows, term);
      (forall i :: 0 <= i < |once| ==> RowSearchable(once[i], term)) && Search(once, term) == once
  {
    var once := Search(rows, term);
    Lists.FilterAll(once, (row: ClassRow) => RowMatches(row, term));
  }
}

=== FILE: dashboard.dfy ===
/**
 * The Dashboard: the overview counts, today's attendance, the average grade
 * and the cards of the first four classes (src/components/pages/Dashboard.jsx).
 * Every read is normalised (`field_c || field`); today's date is a parameter,
 * the "YYYY-MM-DD" part of the current instant.
 */
module Dashboard {
  import opened Js
  import opened Records
  import Text
  import Lists
  import Stats
  import Reports

  /** The record has a (non-empty) date whose day part is `today`. */
  predicate IsToday(a: AttendanceRecord, today: string) {
    TruthyString(RecordDateOf(a)) && Text.BeforeT(RecordDateOf(a).value) == today
  }

  /** `todayAttendance`: the records dated today, in order. */
  function TodayAttendance(records: seq<AttendanceRecord>, today: string): (r: seq<AttendanceRecord>)
    ensures forall i :: 0 <= i < |r| ==> r[i] in records && IsToday(r[i], today)
    ensures forall i :: 0 <= i < |records| && IsToday(records[i], today) ==> records[i] in r
    ensures Lists.IsSubsequence(r, records)
    ensures forall a | a in records :: multiset(r)[a] == if IsToday(a, today) then multiset(records)[a] else 0
    ensures multiset(r) <= multiset(records)
  {
    Lists.Filter(records, (a: AttendanceRecord) => IsToday(a, today))
  }

  /** The dashboard's figures. */
  datatype Summary = Summary(
    totalStudents: nat, activeStudents: nat, inactiveStudents: int, totalClasses: nat,
    presentToday: nat, recordedToday: nat, attendanceRate: int, averageGrade: int)

  /**
   * The stat cards and quick stats: every figure is over all students, classes and grades;
   * the attendance figures over today's records only.
   */
  function ComputeSummary(students: seq<Student>, classes: seq<Class>, records: seq<AttendanceRecord>,
                          grades: seq<Grade>, today: string): (r: Summary)
    ensures r.totalStudents == |students| && r.totalClasses == |classes|
    ensures r.activeStudents == Stats.ActiveCount(students)
    ensures r.activeStudents <= r.totalStudents
    ensures r.inactiveStudents == r.totalStudents - r.activeStudents >= 0
    ensures r.recordedToday == |TodayAttendance(records, today)|
    ensures r.presentToday <= r.recordedToday
    ensures r.presentToday == Lists.Count(TodayAttendance(records, today), Stats.IsPresent)
    ensures 0 <= r.attendanceRate <= 100
    ensures r.recordedToday == 0 ==> r.attendanceRate == 0
    ensures r.recordedToday > 0 ==> Stats.RoundedShare(r.attendanceRate, r.presentToday, r.recordedToday)
    ensures Stats.RoundedMean(r.averageGrade, grades)
  {
    var todays := TodayAttendance(records, today);
    var active := Stats.ActiveCount(students);
    Summary(|students|, active, |students| - active, |classes|,
            Lists.Count(todays, Stats.IsPresent), |todays|, Stats.PresentRate(todays), Stats.AverageScore(grades))
  }

  /** A class card: the class, its number of students and its rounded average. */
  datatype ClassCard = ClassCard(cls: Class, studentCount: nat, average: int)

  /** `classes.slice(0, 4).map(...)`: cards for the first four classes, in order. */
  function ClassCards(classes: seq<Class>, students: seq<Student>, grades: seq<Grade>): (r: seq<ClassCard>)
    ensures |r| == if |classes| < 4 then |classes| else 4
    ensures forall i :: 0 <= i < |r| ==>
      && r[i].cls == classes[i]
      && r[i].studentCount == |Stats.ClassStudents(students, classes[i].Id)|
      && Stats.RoundedMean(r[i].average, Stats.ClassGrades(grades, students, classes[i].Id))
  {
    var shown := classes[..if |classes| < 4 then |classes| else 4];
    seq(|shown|, i requires 0 <= i < |shown| =>
      ClassCard(shown[i], |Stats.ClassStudents(students, shown[i].Id)|, Stats.ClassAverage(grades, students, shown[i].Id)))
  }

  /** A class card shows the same student count and average as the class's row on the Reports page. */
  lemma CardsAgreeWithReports(classes: seq<Class>, students: seq<Student>, grades: seq<Grade>, k: int)
    requires 0 <= k < |ClassCards(classes, students, grades)|
    ensures var card := ClassCards(classes, students, grades)[k];
      Reports.ClassRow(card.cls, card.average, card.studentCount) in Reports.ClassPerformance(classes, students, grades)
  {
    Reports.EveryClassListed(classes, students, grades, k);
  }
}

=== FILE: grade_matrix.dfy ===
/**
 * The grade matrix: reading one cell, banding a percentage into a letter, and
 * a student's average over the grades whose assignment is on the matrix
 * (src/components/organisms/GradeMatrix.jsx). The matrix reads the plain
 * field names only.
 */
module GradeMatrix {
  import opened Js
  import opened Records
  import Lists

  /** What a score input shows: `""` when there is no grade, otherwise the grade's `score`. */
  datatype Cell = Blank | Entry(score: Option<real>)

  /** The key a matrix cell and the grade upsert look grades up by. */
  predicate IsCellOf(g: Grade, studentId: int, assignmentId: int) {
    g.studentId == Some(studentId) && g.assignmentId == Some(assignmentId)
  }

  /** `getGrade`: the score of the first grade for this student and assignment. */
  function GetGrade(grades: seq<Grade>, studentId: int, assignmentId: int): (r: Cell)
    ensures r.Blank? <==> forall i :: 0 <= i < |grades| ==> !IsCellOf(grades[i], studentId, assignmentId)
    ensures r.Entry? ==> exists i ::
      Lists.FirstMatch(grades, g => IsCellOf(g, studentId, assignmentId), i) && r.score == grades[i].score
  {
    match Lists.Find(grades, g => IsCellOf(g, studentId, assignmentId))
    case None => Blank
    case Some(g) => Entry(g.score)
  }

  /**
   * The score an edited input reports, `parseFloat(value) || 0`: `parsed` is the parsed
   * number, `None` for text that does not parse (NaN); NaN and 0 both report 0.
   */
  function EnteredScore(parsed: Option<real>): (r: real)
    ensures r == 0.0 <==> parsed.None? || parsed == Some(0.0)
    ensures parsed.Some? ==> r == parsed.value
  {
    OrReal(parsed, Some(0.0)).value
  }

  /** The thirteen letters, best first. */
  const Letters: seq<string> := ["A+", "A", "A-", "B+", "B", "B-", "C+", "C", "C-", "D+", "D", "D-", "F"]

  /** The position of a letter counted from "F" upwards: a larger rank is a better letter. */
  function Rank(letter: string): int {
    if letter == "A+" then 12 else if letter == "A" then 11 else if letter == "A-" then 10
    else if letter == "B+" then 9 else if letter == "B" then 8 else if letter == "B-" then 7
    else if letter == "C+" then 6 else if letter == "C" then 5 else if letter == "C-" then 4
    else if letter == "D+" then 3 else if letter == "D" then 2 else if letter == "D-" then 1
    else 0
  }

  /** The band a percentage falls in: inclusive lower cut-offs tried from the highest down. */
  function LetterFor(p: Number): (r: string)
    ensures r in Letters
    ensures r == "A+" <==> AtLeast(p, 97.0)
    ensures r == "F" <==> !AtLeast(p, 60.0)
  {
    if AtLeast(p, 97.0) then "A+"
    else if AtLeast(p, 93.0) then "A"
    else if AtLeast(p, 90.0) then "A-"
    else if AtLeast(p, 87.0) then "B+"
    else if AtLeast(p, 83.0) then "B"
    else if AtLeast(p, 80.0) then "B-"
    else if AtLeast(p, 77.0) then "C+"
    else if AtLeast(p, 73.0) then "C"
    else if AtLeast(p, 70.0) then "C-"
    else if AtLeast(p, 67.0) then "D+"
    else if AtLeast(p, 63.0) then "D"
    else if AtLeast(p, 60.0) then "D-"
    else "F"
  }

  /** `(score / totalPoints) * 100`. */
  function Percentage(score: Number, totalPoints: Number): Number {
    Scale(Divide(score, totalPoints), 100.0)
  }

  /** For a positive total, "at least k percent" is the cross-multiplied comparison. */
  lemma PercentageAtLeast(score: Number, totalPoints: Number, k: real)
    ensures score.Finite? && totalPoints.Finite? && totalPoints.value > 0.0 ==>
      (AtLeast(Percentage(score, totalPoints), k) <==> 100.0 * score.value >= k * totalPoints.value)
  {
    if score.Finite? && totalPoints.Finite? && totalPoints.value > 0.0 {
      var s, t := score.value, totalPoints.value;
      var q := s / t;
      assert q * t == s;
      if q * 100.0 >= k {
        assert q * 100.0 * t >= k * t;
      } else {
        assert q * 100.0 * t < k * t;
      }
    }
  }

  /** `calculateLetterGrade`: the letter for the ratio of a score to the points available. */
  function CalculateLetterGrade(score: Number, totalPoints: Number): (r: string)
    ensures r in Letters
    ensures score.Finite? && totalPoints.Finite? && totalPoints.value > 0.0 ==>
      (r == "A+" <==> 100.0 * score.value >= 97.0 * totalPoints.value)
    ensures score.Finite? && totalPoints.Finite? && totalPoints.value > 0.0 ==>
      (r == "F" <==> 100.0 * score.value < 60.0 * totalPoints.value)
    ensures score.NaN? || totalPoints.NaN? ==> r == "F"
  {
    PercentageAtLeast(score, totalPoints, 97.0);
    PercentageAtLeast(score, totalPoints, 60.0);
    LetterFor(Percentage(score, totalPoints))
  }

  /** Cut-offs are inclusive lower bounds: exactly 90 is "A-", and all of [87, 90) is "B+". */
  lemma CutoffsInclusive(p: real)
    ensures LetterFor(Finite(90.0)) == "A-"
    ensures 87.0 <= p < 90.0 ==> LetterFor(Finite(p)) == "B+"
  {
  }

  /** The number of cut-offs a finite percentage reaches. */
  function CutoffsReached(p: real): int {
    if p >= 97.0 then 12 else if p >= 93.0 then 11 else if p >= 90.0 then 10
    else if p >= 87.0 then 9 else if p >= 83.0 then 8 else if p >= 80.0 then 7
    else if p >= 77.0 then 6 else if p >= 73.0 then 5 else if p >= 70.0 then 4
    else if p >= 67.0 then 3 else if p >= 63.0 then 2 else if p >= 60.0 then 1
    else 0
  }

  /** A letter's rank is the number of cut-offs its percentage reaches. */
  lemma RankIsCutoffsReached(p: real)
    ensures Rank(LetterFor(Finite(p))) == CutoffsReached(p)
  {
  }

  /** Banding is monotone: a higher percentage never gets a lower letter. */
  lemma LetterMonotone(p: real, q: real)
    requires p <= q
    ensures Rank(LetterFor(Finite(p))) <= Rank(LetterFor(Finite(q)))
  {
    RankIsCutoffsReached(p);
    RankIsCutoffsReached(q);
  }

  /** What the matrix shows in a student's Average column. */
  datatype Average = Average(percentage: Number, letter: string)

  /** `assignments.find(a => a.Id === assignmentId)`. */
  function Resolve(assignments: seq<Assignment>, assignmentId: Option<int>): Option<Assignment> {
    Lists.Find(assignments, (a: Assignment) => Some(a.Id) == assignmentId)
  }

  /** The grades of one student, by the plain `studentId`. */
  function GradesOf(grades: seq<Grade>, studentId: int): seq<Grade> {
    Lists.Filter(grades, (g: Grade) => g.studentId == Some(studentId))
  }

  /**
   * The accumulators after visiting `gs` in order: each grade whose assignment resolves adds
   * its `score` to the first and the assignment's `totalPoints` to the second (an absent
   * value turns a sum into NaN); a grade whose assignment does not resolve adds nothing.
   */
  function Totals(gs: seq<Grade>, assignments: seq<Assignment>): (Number, Number) {
    if gs == [] then (Finite(0.0), Finite(0.0))
    else
      var t := Totals(gs[..|gs| - 1], assignments);
      var g := gs[|gs| - 1];
      match Resolve(assignments, g.assignmentId)
      case None => t
      case Some(a) => (AddField(t.0, g.score), AddField(t.1, a.totalPoints))
  }

  /** The average for given totals: the rounded percentage, and the letter of the unrounded ratio. */
  function AverageFor(totalScore: Number, totalPoints: Number): Average {
    Average(RoundNumber(Percentage(totalScore, totalPoints)), CalculateLetterGrade(totalScore, totalPoints))
  }

  /** `getStudentAverage` as a value: `None` (null) for a student without grades. */
  function StudentAverage(grades: seq<Grade>, assignments: seq<Assignment>, studentId: int): Option<Average> {
    var gs := GradesOf(grades, studentId);
    if |gs| == 0 then None
    else
      var t := Totals(gs, assignments);
      Some(AverageFor(t.0, t.1))
  }

  /** `getStudentAverage`: filters the student's grades, then accumulates them in one pass. */
  method GetStudentAverage(grades: seq<Grade>, assignments: seq<Assignment>, studentId: int)
    returns (r: Option<Average>)
    ensures r == StudentAverage(grades, assignments, studentId)
    ensures r.None? <==> forall i :: 0 <= i < |grades| ==> grades[i].studentId != Some(studentId)
  {
    var studentGrades := GradesOf(grades, studentId);
    if |studentGrades| == 0 {
      return None;
    }
    var totalScore := Finite(0.0);
    var totalPoints := Finite(0.0);
    var i := 0;
    while i < |studentGrades|
      invariant 0 <= i <= |studentGrades|
      invariant (totalScore, totalPoints) == Totals(studentGrades[..i], assignments)
    {
      var grade := studentGrades[i];
      assert studentGrades[..i + 1][..i] == studentGrades[..i];
      var assignment := Resolve(assignments, grade.assignmentId);
      if assignment.Some? {
        totalScore := AddField(totalScore, grade.score);
        totalPoints := AddField(totalPoints, assignment.value.totalPoints);
      }
      i := i + 1;
    }
    assert studentGrades[..i] == studentGrades;
    r := Some(AverageFor(totalScore, totalPoints));
  }

  /** No grade of `gs` resolves to an assignment on the matrix. */
  predicate NoneResolve(gs: seq<Grade>, assignments: seq<Assignment>) {
    forall i :: 0 <= i < |gs| ==> Resolve(assignments, gs[i].assignmentId).None?
  }

  lemma {:induction false} TotalsOfUnresolved(gs: seq<Grade>, assignments: seq<Assignment>)
    requires NoneResolve(gs, assignments)
    ensures Totals(gs, assignments) == (Finite(0.0), Finite(0.0))
  {
    if gs != [] {
      TotalsOfUnresolved(gs[..|gs| - 1], assignments);
    }
  }

  /** A grade whose assignment is not on the matrix, wherever it stands, leaves both totals as they are. */
  lemma {:induction false} TotalsSkipUnresolved(xs: seq<Grade>, g: Grade, ys: seq<Grade>, assignments: seq<Assignment>)
    requires Resolve(assignments, g.assignmentId).None?
    ensures Totals(xs + [g] + ys, assignments) == Totals(xs + ys, assignments)
  {
    if ys == [] {
      assert xs + [g] + ys == xs + [g] && xs + ys == xs;
      assert (xs + [g])[..|xs + [g]| - 1] == xs;
    } else {
      var init, y := ys[..|ys| - 1], ys[|ys| - 1];
      TotalsSkipUnresolved(xs, g, init, assignments);
      assert (xs + [g] + ys)[..|xs + [g] + ys| - 1] == xs + [g] + init;
      assert (xs + ys)[..|xs + ys| - 1] == xs + init;
      assert (xs + [g] + ys)[|xs + [g] + ys| - 1] == y == (xs + ys)[|xs + ys| - 1];
    }
  }

  /**
   * A student with grades none of which is for an assignment on the matrix: the total points
   * stay 0, the percentage is 0/0 (NaN) and the letter is "F".
   */
  lemma UnresolvedGradesGiveNaN(grades: seq<Grade>, assignments: seq<Assignment>, studentId: int)
    requires exists i :: 0 <= i < |grades| && grades[i].studentId == Some(studentId)
    requires NoneResolve(GradesOf(grades, studentId), assignments)
    ensures StudentAverage(grades, assignments, studentId) == Some(Average(NaN, "F"))
  {
    var gs := GradesOf(grades, studentId);
    var i :| 0 <= i < |grades| && grades[i].studentId == Some(studentId);
    assert grades[i] in gs;
    TotalsOfUnresolved(gs, assignments);
  }

  /** Every grade that resolves has a score, and every assignment it resolves to has positive points. */
  predicate FullyRecorded(gs: seq<Grade>, assignments: seq<Assignment>) {
    forall i :: 0 <= i < |gs| ==>
      match Resolve(assignments, gs[i].assignmentId)
      case None => true
      case Some(a) => gs[i].score.Some? && a.totalPoints.Some? && a.totalPoints.value > 0.0
  }

  lemma {:induction false} TotalsOfRecorded(gs: seq<Grade>, assignments: seq<Assignment>)
    requires FullyRecorded(gs, assignments)
    ensures Totals(gs, assignments).0.Finite? && Totals(gs, assignments).1.Finite?
    ensures Totals(gs, assignments).1.value >= 0.0
    ensures Totals(gs, assignments).1.value > 0.0 <==> !NoneResolve(gs, assignments)
  {
    if gs != [] {
      var init := gs[..|gs| - 1];
      assert FullyRecorded(init, assignments) by {
        forall i | 0 <= i < |init| ensures init[i] == gs[i] { }
      }
      TotalsOfRecorded(init, assignments);
      if !NoneResolve(gs, assignments) && NoneResolve(init, assignments) {
        assert Resolve(assignments, gs[|gs| - 1].assignmentId).Some?;
      }
      if NoneResolve(gs, assignments) {
        assert NoneResolve(init, assignments);
      }
    }
  }

  /**
   * With complete data and at least one grade on the matrix, the student's average is that of
   * finite totals with positive points, which `RecordedTotalsAverage` gives outright.
   */
  lemma RecordedAverage(grades: seq<Grade>, assignments: seq<Assignment>, studentId: int)
    requires FullyRecorded(GradesOf(grades, studentId), assignments)
    requires !NoneResolve(GradesOf(grades, studentId), assignments)
    ensures var t := Totals(GradesOf(grades, studentId), assignments);
      && t.0.Finite? && t.1.Finite? && t.1.value > 0.0
      && StudentAverage(grades, assignments, studentId) == Some(AverageFor(t.0, t.1))
  {
    var gs := GradesOf(grades, studentId);
    TotalsOfRecorded(gs, assignments);
    var i :| 0 <= i < |gs| && Resolve(assignments, gs[i].assignmentId).Some?;
  }

  /**
   * The average of totals over fully recorded grades, some of which resolve: the percentage
   * is the rounded ratio and the letter's bands follow the exact ratio, so 89.6% shows as 90
   * with "B+".
   */
  lemma RecordedTotalsAverage(gs: seq<Grade>, assignments: seq<Assignment>)
    requires FullyRecorded(gs, assignments)
    requires !NoneResolve(gs, assignments)
    ensures var t := Totals(gs, assignments);
      && t.0.Finite? && t.1.Finite? && t.1.value > 0.0
      && AverageFor(t.0, t.1)
         == Average(Finite(Js.Round(t.0.value / t.1.value * 100.0) as real), CalculateLetterGrade(t.0, t.1))
  {
    TotalsOfRecorded(gs, assignments);
    var t := Totals(gs, assignments);
    AverageOfPositiveTotal(t.0.value, t.1.value);
  }

  /** For finite totals with positive points, the average is the rounded exact percentage. */
  lemma AverageOfPositiveTotal(score: real, points: real)
    requires points > 0.0
    ensures AverageFor(Finite(score), Finite(points))
      == Average(Finite(Js.Round(score / points * 100.0) as real), CalculateLetterGrade(Finite(score), Finite(points)))
  {
    assert Percentage(Finite(score), Finite(points)) == Finite(score / points * 100.0);
  }

  /** 89.6% is shown as 90 but banded "B+", because the letter uses the unrounded ratio. */
  lemma RoundedPercentageKeepsExactLetter()
    ensures AverageFor(Finite(44.8), Finite(50.0)) == Average(Finite(90.0), "B+")
  {
    assert 44.8 / 50.0 * 100.0 == 89.6;
  }
}

=== FILE: grade_pill.dfy ===
/** The colour and the text of a letter-grade pill (src/components/molecules/GradePill.jsx). */
module GradePill {
  import opened Js
  import opened Badge
  import opened Records
  import GradeMatrix

  /** `getGradeVariant`: each letter family has its colour, anything else the default. */
  function GradeVariant(grade: string): (r: Variant)
    ensures r == Success <==> grade in {"A", "A+", "A-"}
    ensures r == Info <==> grade in {"B", "B+", "B-"}
    ensures r == Warning <==> grade in {"C", "C+", "C-"}
    ensures r == Accent <==> grade in {"D", "D+", "D-"}
    ensures r == Error <==> grade == "F"
    ensures r in {Success, Info, Warning, Accent, Error, Default}
  {
    match grade
    case "A" => Success
    case "A+" => Success
    case "A-" => Success
    case "B" => Info
    case "B+" => Info
    case "B-" => Info
    case "C" => Warning
    case "C+" => Warning
    case "C-" => Warning
    case "D" => Accent
    case "D+" => Accent
    case "D-" => Accent
    case "F" => Error
    case _ => Default
  }

  /** Every letter the matrix can compute gets a colour of its own family, never the default. */
  lemma EveryLetterColoured(score: Number, totalPoints: Number)
    ensures GradeVariant(GradeMatrix.CalculateLetterGrade(score, totalPoints)) != Default
  {
    var letter := GradeMatrix.CalculateLetterGrade(score, totalPoints);
    assert letter in GradeMatrix.Letters;
  }

  /** A better letter never gets a colour of a lower family. */
  lemma ColourFollowsRank(a: string, b: string)
    requires a in GradeMatrix.Letters && b in GradeMatrix.Letters
    requires GradeMatrix.Rank(a) <= GradeMatrix.Rank(b)
    ensures Family(GradeVariant(b)) <= Family(GradeVariant(a))
  {
  }

  /**
   * What follows the letter: the "(score%)" label, or a number React prints as text because
   * `score && ...` evaluated to it.
   */
  datatype Suffix = Label(percent: Number) | Printed(text: string)

  /**
   * The pill's `score && `(${score}%)``: the label for a truthy score; a falsy score is the
   * value of the expression, so 0 renders as "0" and NaN as "NaN" after the letter.
   */
  function ScoreSuffix(score: Number): (r: Suffix)
    ensures r.Label? <==> score != Finite(0.0) && score != NaN
    ensures r.Label? ==> r.percent == score
    ensures score == Finite(0.0) ==> r == Printed("0")
    ensures score == NaN ==> r == Printed("NaN")
  {
    match score
    case Finite(v) => if v == 0.0 then Printed("0") else Label(score)
    case NaN => Printed("NaN")
    case _ => Label(score)
  }

  /** The evidently intended suffix: the label for a truthy score, and nothing otherwise. */
  function IntendedSuffix(score: Number): (r: Option<Number>)
    ensures r.None? <==> score == Finite(0.0) || score == NaN
    ensures r.Some? ==> r.value == score
  {
    match score
    case Finite(v) => if v == 0.0 then None else Some(score)
    case NaN => None
    case _ => Some(score)
  }

  /** The two suffixes differ only where the written one prints the falsy number. */
  lemma IntendedSuffixAgrees(score: Number)
    ensures IntendedSuffix(score).Some? <==> ScoreSuffix(score).Label?
    ensures IntendedSuffix(score).Some? ==> ScoreSuffix(score) == Label(IntendedSuffix(score).value)
    ensures IntendedSuffix(score).None? ==> ScoreSuffix(score).Printed?
  {
  }

  /**
   * A student who scored nothing on the matrix's assignments gets "F" followed by a printed
   * "0" as written; the intended pill shows the letter alone.
   */
  lemma ZeroAveragePrintsZero(totalPoints: real)
    requires totalPoints > 0.0
    ensures var avg := GradeMatrix.AverageFor(Finite(0.0), Finite(totalPoints));
      && avg.letter == "F"
      && ScoreSuffix(avg.percentage) == Printed("0")
      && IntendedSuffix(avg.percentage).None?
  {
    assert 0.0 / totalPoints * 100.0 == 0.0;
    assert Js.Round(0.0) == 0;
  }

  /**
   * A student whose grades are all for assignments off the matrix gets "F" followed by a
   * printed "NaN" as written; the intended pill shows the letter alone.
   */
  lemma UnresolvedGradesPrintNaN(grades: seq<Grade>, assignments: seq<Assignment>, studentId: int)
    requires exists i :: 0 <= i < |grades| && grades[i].studentId == Some(studentId)
    requires GradeMatrix.NoneResolve(GradeMatrix.GradesOf(grades, studentId), assignments)
    ensures var avg := GradeMatrix.StudentAverage(grades, assignments, studentId);
      && avg.Some? && avg.value.letter == "F"
      && ScoreSuffix(avg.value.percentage) == Printed("NaN")
      && IntendedSuffix(avg.value.percentage).None?
  {
    GradeMatrix.UnresolvedGradesGiveNaN(grades, assignments, studentId);
  }

  /** The colour families in order, A family first. */
  function Family(v: Variant): int {
    match v
    case Success => 0
    case Info => 1
    case Warning => 2
    case Accent => 3
    case Error => 4
    case _ => 5
  }
}

=== FILE: grades_page.dfy ===
/**
 * The Grades page: the students and assignments of the selected class, and the
 * local update of the grade list when a matrix cell changes
 * (src/components/pages/Grades.jsx). Like the matrix, the page reads the
 * plain field names.
 */
module GradesPage {
  import opened Js
  import opened Records
  import Lists
  import GradeMatrix

  /** What the matrix is given: the selected class's students and assignments. */
  datatype ClassView = ClassView(students: seq<Student>, assignments: seq<Assignment>)

  /**
   * The class-filter effect: with a class selected, the students and assignments whose plain
   * `classId` is that class, in their original order; with nothing selected (`""`) the view
   * is left as it was.
   */
  function SelectClass(selected: Option<int>, students: seq<Student>, assignments: seq<Assignment>, shown: ClassView)
    : (r: ClassView)
    ensures selected.None? ==> r == shown
    ensures selected.Some? ==>
      && (forall i :: 0 <= i < |r.students| ==> r.students[i] in students && r.students[i].classId == selected)
      && (forall i :: 0 <= i < |students| && students[i].classId == selected ==> students[i] in r.students)
      && Lists.IsSubsequence(r.students, students)
      && (forall s | s in students :: multiset(r.students)[s] == if s.classId == selected then multiset(students)[s] else 0)
      && multiset(r.students) <= multiset(students)
      && (forall i :: 0 <= i < |r.assignments| ==> r.assignments[i] in assignments && r.assignments[i].classId == selected)
      && (forall i :: 0 <= i < |assignments| && assignments[i].classId == selected ==> assignments[i] in r.assignments)
      && Lists.IsSubsequence(r.assignments, assignments)
      && (forall a | a in assignments :: multiset(r.assignments)[a] == if a.classId == selected then multiset(assignments)[a] else 0)
      && multiset(r.assignments) <= multiset(assignments)
  {
    if selected.None? then shown
    else
      ClassView(
        Lists.Filter(students, (s: Student) => s.classId == selected),
        Lists.Filter(assignments, (a: Assignment) => a.classId == selected))
  }

  /** `grades.map(x => x.Id)`. */
  function IdsOf(grades: seq<Grade>): seq<int> {
    Lists.Map(grades, (x: Grade) => x.Id)
  }

  /** The largest entry of a non-empty list, as `Math.max(...ids)`. */
  function Max(ids: seq<int>): (m: int)
    requires ids != []
    ensures forall i :: 0 <= i < |ids| ==> ids[i] <= m
    ensures exists i :: 0 <= i < |ids| && ids[i] == m
  {
    if |ids| == 1 then ids[0]
    else
      var m := Max(ids[1..]);
      if ids[0] >= m then ids[0] else m
  }

  /** The id the page computes for a new grade, `Math.max(...ids) + 1`: -Infinity for no grades. */
  function NextGradeIdAsWritten(ids: seq<int>): (r: Number)
    ensures ids == [] ==> r == NegInfinity
    ensures ids != [] ==> r.Finite? && forall i :: 0 <= i < |ids| ==> (ids[i] as real) < r.value
    ensures ids != [] ==> exists i :: 0 <= i < |ids| && r == Finite((ids[i] + 1) as real)
  {
    if ids == [] then NegInfinity else Finite((Max(ids) + 1) as real)
  }

  /** On an empty grade list the written id is -Infinity, where the corrected id is 1. */
  lemma EmptyGradeListGetsNegInfinityId()
    ensures NextGradeIdAsWritten([]) == NegInfinity
    ensures Lists.NextId([]) == 1
  {
  }

  /** Wherever some id is non-negative, the written and the corrected ids agree. */
  lemma NextIdAgreesWithWritten(ids: seq<int>)
    requires exists i :: 0 <= i < |ids| && ids[i] >= 0
    ensures NextGradeIdAsWritten(ids) == Finite(Lists.NextId(ids) as real)
  {
    var m := Lists.MaxWithZero(ids);
    var k :| 0 <= k < |ids| && ids[k] >= 0;
    if m == 0 {
      assert ids[k] == 0;
    }
    var j :| 0 <= j < |ids| && ids[j] == m;
    assert Max(ids) == m;
  }

  /** The grade a changed cell edits: the first one for this student and assignment. */
  function ExistingIndex(grades: seq<Grade>, studentId: int, assignmentId: int): Option<nat> {
    Lists.FindIndex(grades, (g: Grade) => GradeMatrix.IsCellOf(g, studentId, assignmentId))
  }

  /** `[...grades]` with the grade at `k` replaced by a copy carrying the new `score`. */
  method SetScore(grades: seq<Grade>, k: nat, score: real) returns (updated: seq<Grade>)
    requires k < |grades|
    ensures |updated| == |grades|
    ensures updated[k] == grades[k].(score := Some(score))
    ensures forall j :: 0 <= j < |grades| && j != k ==> updated[j] == grades[j]
  {
    var copy := new Grade[|grades|](i requires 0 <= i < |grades| => grades[i]);
    copy[k] := copy[k].(score := Some(score));
    updated := copy[..];
  }

  /**
   * `handleGradeChange`: copies the list and overwrites the `score` of the first matching
   * grade; with no match, appends a new grade whose id exceeds every existing id.
   */
  method UpsertGrade(grades: seq<Grade>, studentId: int, assignmentId: int, score: real, now: string)
    returns (updated: seq<Grade>)
    ensures var k := ExistingIndex(grades, studentId, assignmentId);
      k.Some? ==>
        && |updated| == |grades|
        && updated[k.value] == grades[k.value].(score := Some(score))
        && forall j :: 0 <= j < |grades| && j != k.value ==> updated[j] == grades[j]
    ensures ExistingIndex(grades, studentId, assignmentId).None? ==>
      && updated == grades + [Grade(Lists.NextId(IdsOf(grades)), None, Some(studentId), Some(assignmentId),
                                    None, Some(score), Some(now))]
      && forall j :: 0 <= j < |grades| ==> grades[j].Id != updated[|grades|].Id
    ensures GradeMatrix.GetGrade(updated, studentId, assignmentId) == GradeMatrix.Entry(Some(score))
    ensures Lists.Distinct(IdsOf(grades)) ==> Lists.Distinct(IdsOf(updated))
  {
    var key := (g: Grade) => GradeMatrix.IsCellOf(g, studentId, assignmentId);
    var existing := ExistingIndex(grades, studentId, assignmentId);
    if existing.Some? {
      var k := existing.value;
      updated := SetScore(grades, k, score);
      assert Lists.FirstMatch(updated, key, k);
      Lists.FindIndexIsFirstMatch(updated, key, k);
      assert IdsOf(updated) == IdsOf(grades);
    } else {
      var newGrade := Grade(Lists.NextId(IdsOf(grades)), None, Some(studentId), Some(assignmentId),
                            None, Some(score), Some(now));
      updated := grades + [newGrade];
      assert updated[..|grades|] == grades;
      assert Lists.FirstMatch(updated, key, |grades|);
      Lists.FindIndexIsFirstMatch(updated, key, |grades|);
      assert IdsOf(updated) == IdsOf(grades) + [newGrade.Id];
    }
  }
}

=== FILE: js.dfy ===
/**
 * The few JavaScript value semantics the classroom derivations depend on:
 * absent fields, the `||` fallback, IEEE special values produced by division,
 * and `Math.round`.
 */
module Js {

  /**
   * A value that may be absent: as a field, `None` is `undefined` (a field holding `null` is
   * not modelled); as the result of a function, `None` is the `null` it returns.
   */
  datatype Option<+T> = None | Some(value: T)

  /** JavaScript truthiness of an optional integer: absent and 0 are falsy. */
  predicate TruthyInt(x: Option<int>) {
    x.Some? && x.value != 0
  }

  /** JavaScript truthiness of an optional string: absent and "" are falsy. */
  predicate TruthyString(x: Option<string>) {
    x.Some? && x.value != ""
  }

  /** JavaScript truthiness of an optional number: absent and 0 are falsy. */
  predicate TruthyReal(x: Option<real>) {
    x.Some? && x.value != 0.0
  }

  /** `a || b` on integer fields: `a` when it is truthy, otherwise `b` whatever `b` is. */
  function OrInt(a: Option<int>, b: Option<int>): (r: Option<int>)
    ensures TruthyInt(a) ==> r == a
    ensures !TruthyInt(a) ==> r == b
  {
    if TruthyInt(a) then a else b
  }

  /** `a || b` on string fields. */
  function OrString(a: Option<string>, b: Option<string>): (r: Option<string>)
    ensures TruthyString(a) ==> r == a
    ensures !TruthyString(a) ==> r == b
  {
    if TruthyString(a) then a else b
  }

  /** `a || b` on numeric fields. */
  function OrReal(a: Option<real>, b: Option<real>): (r: Option<real>)
    ensures TruthyReal(a) ==> r == a
    ensures !TruthyReal(a) ==> r == b
  {
    if TruthyReal(a) then a else b
  }

  /** A JavaScript number, with exact reals in place of binary floating point. */
  datatype Number = Finite(value: real) | PosInfinity | NegInfinity | NaN

  /** `Math.round` of a finite value: the nearest integer, halves rounded up. */
  function Round(x: real): (r: int)
    ensures r as real - 0.5 <= x < r as real + 0.5
  {
    (x + 0.5).Floor
  }

  /** `Math.round` on any number: NaN and the infinities are returned unchanged. */
  function RoundNumber(n: Number): (r: Number)
    ensures n.Finite? <==> r.Finite?
    ensures n.Finite? ==> r.value == Round(n.value) as real
    ensures !n.Finite? ==> r == n
  {
    match n
    case Finite(x) => Finite(Round(x) as real)
    case _ => n
  }

  /** `a + b` where `b` is a field that may be `undefined` (which turns the sum into NaN). */
  function AddField(a: Number, b: Option<real>): (r: Number)
    ensures a.Finite? && b.Some? ==> r == Finite(a.value + b.value)
    ensures b.None? || a.NaN? ==> r.NaN?
  {
    if b.None? then NaN
    else match a
      case Finite(x) => Finite(x + b.value)
      case _ => a
  }

  /** The sign of an infinity as a number of unit size, for the rules of division. */
  function Sign(n: Number): int {
    match n
    case Finite(x) => if x < 0.0 then -1 else 1
    case NegInfinity => -1
    case _ => 1
  }

  /** IEEE division `a / b` (the sign of zero is not modelled: every zero divisor is +0). */
  function Divide(a: Number, b: Number): (r: Number)
    ensures a.Finite? && b.Finite? && b.value != 0.0 ==> r == Finite(a.value / b.value)
    ensures a.Finite? && b == Finite(0.0) ==>
      r == (if a.value > 0.0 then PosInfinity else if a.value < 0.0 then NegInfinity else NaN)
    ensures a.NaN? || b.NaN? ==> r.NaN?
  {
    if a.NaN? || b.NaN? then NaN
    else if a.Finite? && b.Finite? then
      if b.value != 0.0 then Finite(a.value / b.value)
      else if a.value > 0.0 then PosInfinity
      else if a.value < 0.0 then NegInfinity
      else NaN
    else if a.Finite? then Finite(0.0)
    else if b.Finite? then
      (if Sign(a) * Sign(b) > 0 then PosInfinity else NegInfinity)
    else NaN
  }

  /** `n * k` for a positive constant `k`. */
  function Scale(n: Number, k: real): (r: Number)
    requires k > 0.0
    ensures n.Finite? ==> r == Finite(n.value * k)
    ensures !n.Finite? ==> r == n
  {
    if n.Finite? then Finite(n.value * k) else n
  }

  /** The JavaScript comparison `n >= k`: false for NaN, true for +Infinity, false for -Infinity. */
  predicate AtLeast(n: Number, k: real) {
    match n
    case Finite(x) => x >= k
    case PosInfinity => true
    case _ => false
  }
}

=== FILE: lists.dfy ===
/**
 * The array methods the pages chain together — `filter`, `findIndex`/`find`,
 * `map` and a descending `sort` — as functions over sequences, each
 * with the contract the pages rely on.
 */
module Lists {
  import opened Js

  /** `sub` is `xs` with some elements dropped and the rest kept in order. */
  predicate IsSubsequence<T(==)>(sub: seq<T>, xs: seq<T>)
    decreases |xs|
  {
    if sub == [] then true
    else if xs == [] then false
    else if sub[0] == xs[0] then IsSubsequence(sub[1..], xs[1..])
    else IsSubsequence(sub, xs[1..])
  }

  /** `xs.filter(p)`: the elements satisfying `p`, in their original order. */
  function Filter<T(==)>(xs: seq<T>, p: T -> bool): (r: seq<T>)
    ensures |r| <= |xs|
    ensures forall i :: 0 <= i < |r| ==> r[i] in xs && p(r[i])
    ensures forall i :: 0 <= i < |xs| && p(xs[i]) ==> xs[i] in r
    ensures |r| == 0 <==> forall i :: 0 <= i < |xs| ==> !p(xs[i])
    ensures IsSubsequence(r, xs)
    ensures forall x | x in xs :: multiset(r)[x] == if p(x) then multiset(xs)[x] else 0
    ensures multiset(r) <= multiset(xs)
  {
    if xs == [] then []
    else
      var rest := Filter(xs[1..], p);
      FilterCons(xs, rest, p);
      if p(xs[0]) then [xs[0]] + rest else rest
  }

  /** `Filter`'s contract carries over from the tail to the whole sequence. */
  lemma FilterCons<T>(xs: seq<T>, rest: seq<T>, p: T -> bool)
    requires xs != []
    requires |rest| <= |xs[1..]|
    requires forall i :: 0 <= i < |rest| ==> rest[i] in xs[1..] && p(rest[i])
    requires forall i :: 0 <= i < |xs[1..]| && p(xs[1..][i]) ==> xs[1..][i] in rest
    requires |rest| == 0 <==> forall i :: 0 <= i < |xs[1..]| ==> !p(xs[1..][i])
    requires IsSubsequence(rest, xs[1..])
    requires forall x | x in xs[1..] :: multiset(rest)[x] == if p(x) then multiset(xs[1..])[x] else 0
    requires multiset(rest) <= multiset(xs[1..])
    ensures var r := if p(xs[0]) then [xs[0]] + rest else rest;
      && |r| <= |xs|
      && (forall i :: 0 <= i < |r| ==> r[i] in xs && p(r[i]))
      && (forall i :: 0 <= i < |xs| && p(xs[i]) ==> xs[i] in r)
      && (|r| == 0 <==> forall i :: 0 <= i < |xs| ==> !p(xs[i]))
      && IsSubsequence(r, xs)
      && (forall x | x in xs :: multiset(r)[x] == if p(x) then multiset(xs)[x] else 0)
      && multiset(r) <= multiset(xs)
  {
    FilterStep(xs, rest, p);
    FilterCountStep(xs, rest, p);
    var r := if p(xs[0]) then [xs[0]] + rest else rest;
    if p(xs[0]) {
      assert r[0] == xs[0] && r[1..] == rest;
    }
  }

  /** One step of `Filter`: the elements kept from the tail, and the head when it matches. */
  lemma FilterStep<T>(xs: seq<T>, rest: seq<T>, p: T -> bool)
    requires xs != []
    requires forall i :: 0 <= i < |rest| ==> rest[i] in xs[1..] && p(rest[i])
    requires forall i :: 0 <= i < |xs[1..]| && p(xs[1..][i]) ==> xs[1..][i] in rest
    ensures var r := if p(xs[0]) then [xs[0]] + rest else rest;
      && (forall i :: 0 <= i < |r| ==> r[i] in xs && p(r[i]))
      && (forall i :: 0 <= i < |xs| && p(xs[i]) ==> xs[i] in r)
      && (|r| == 0 <==> forall i :: 0 <= i < |xs| ==> !p(xs[i]))
  {
    var tail, r := xs[1..], if p(xs[0]) then [xs[0]] + rest else rest;
    forall i | 0 <= i < |r| ensures r[i] in xs && p(r[i]) {
      if !p(xs[0]) || i > 0 {
        var j := if p(xs[0]) then i - 1 else i;
        assert r[i] == rest[j];
        assert rest[j] in tail;
      }
    }
    forall i | 0 <= i < |xs| && p(xs[i]) ensures xs[i] in r {
      if i > 0 {
        assert xs[i] == tail[i - 1];
      }
    }
  }

  /** One step of `Filter`: each matching value keeps its number of occurrences. */
  lemma FilterCountStep<T>(xs: seq<T>, rest: seq<T>, p: T -> bool)
    requires xs != []
    requires multiset(rest) <= multiset(xs[1..])
    requires forall y | y in xs[1..] :: multiset(rest)[y] == if p(y) then multiset(xs[1..])[y] else 0
    ensures var r := if p(xs[0]) then [xs[0]] + rest else rest;
      && (forall y | y in xs :: multiset(r)[y] == if p(y) then multiset(xs)[y] else 0)
      && multiset(r) <= multiset(xs)
  {
    var x, tail, r := xs[0], xs[1..], if p(xs[0]) then [xs[0]] + rest else rest;
    assert xs == [x] + tail;
    assert multiset(xs) == multiset{x} + multiset(tail);
    assert multiset(r) == (if p(x) then multiset{x} else multiset{}) + multiset(rest);
    forall y | y in xs ensures multiset(r)[y] == if p(y) then multiset(xs)[y] else 0 {
      if y == x && x !in tail {
        assert x !in multiset(rest);
      }
    }
  }

  /** Filtering with a predicate every element satisfies keeps the whole sequence. */
  lemma {:induction false} FilterAll<T>(xs: seq<T>, p: T -> bool)
    requires forall i :: 0 <= i < |xs| ==> p(xs[i])
    ensures Filter(xs, p) == xs
  {
    if xs != [] {
      FilterAll(xs[1..], p);
    }
  }

  /** The positions of `xs` whose element satisfies `p`. */
  function Matching<T>(xs: seq<T>, p: T -> bool): set<int> {
    set i | 0 <= i < |xs| && p(xs[i])
  }

  /** `xs.filter(p).length`: the number of positions whose element satisfies `p`. */
  function Count<T(==)>(xs: seq<T>, p: T -> bool): (n: nat)
    ensures n <= |xs|
    ensures n == |Matching(xs, p)|
  {
    FilterCountsMatching(xs, p);
    |Filter(xs, p)|
  }

  /** `filter` keeps one element for each matching position from `lo` on. */
  lemma {:induction false} FilterCountsFrom<T>(xs: seq<T>, p: T -> bool, lo: nat)
    requires lo <= |xs|
    ensures |Filter(xs[lo..], p)| == |MatchingFrom(xs, p, lo)|
    decreases |xs| - lo
  {
    if lo == |xs| {
      assert xs[lo..] == [];
      assert MatchingFrom(xs, p, lo) == {};
    } else {
      FilterCountsFrom(xs, p, lo + 1);
      MatchingFromStep(xs, p, lo);
      var tail := xs[lo..];
      assert tail != [] && tail[0] == xs[lo] && tail[1..] == xs[lo + 1..];
    }
  }

  /** The matching positions from `lo` on. */
  function MatchingFrom<T>(xs: seq<T>, p: T -> bool, lo: nat): set<int> {
    set i | lo <= i < |xs| && p(xs[i])
  }

  lemma MatchingFromStep<T>(xs: seq<T>, p: T -> bool, lo: nat)
    requires lo < |xs|
    ensures |MatchingFrom(xs, p, lo)| == |MatchingFrom(xs, p, lo + 1)| + if p(xs[lo]) then 1 else 0
  {
    var later := MatchingFrom(xs, p, lo + 1);
    assert lo !in later;
    assert MatchingFrom(xs, p, lo) == later + (if p(xs[lo]) then {lo} else {});
  }

  lemma FilterCountsMatching<T>(xs: seq<T>, p: T -> bool)
    ensures |Filter(xs, p)| == |Matching(xs, p)|
  {
    FilterCountsFrom(xs, p, 0);
    assert xs[0..] == xs;
    assert MatchingFrom(xs, p, 0) == Matching(xs, p);
  }

  /** `xs.findIndex(p)` with -1 as `None`: the position of the first element satisfying `p`. */
  function FindIndex<T>(xs: seq<T>, p: T -> bool): (r: Option<nat>)
    ensures r.None? <==> forall i :: 0 <= i < |xs| ==> !p(xs[i])
    ensures r.Some? ==> r.value < |xs| && p(xs[r.value])
    ensures r.Some? ==> forall i :: 0 <= i < r.value ==> !p(xs[i])
  {
    if xs == [] then None
    else if p(xs[0]) then Some(0)
    else
      match FindIndex(xs[1..], p)
      case None => None
      case Some(k) => Some(k + 1)
  }

  /** `i` is the first position of `xs` whose element satisfies `p`. */
  predicate FirstMatch<T>(xs: seq<T>, p: T -> bool, i: int) {
    0 <= i < |xs| && p(xs[i]) && forall j :: 0 <= j < i ==> !p(xs[j])
  }

  /** `findIndex` returns the first match. */
  lemma FindIndexIsFirstMatch<T>(xs: seq<T>, p: T -> bool, i: int)
    requires FirstMatch(xs, p, i)
    ensures FindIndex(xs, p) == Some(i)
  {
    var r := FindIndex(xs, p);
    assert r.Some? by { assert p(xs[i]); }
    assert !(r.value < i) && !(i < r.value);
  }

  /** `xs.find(p)`: the first element satisfying `p`, if any. */
  function Find<T>(xs: seq<T>, p: T -> bool): (r: Option<T>)
    ensures r.None? <==> forall i :: 0 <= i < |xs| ==> !p(xs[i])
    ensures r.Some? ==> p(r.value)
    ensures r.Some? ==> exists i :: 0 <= i < |xs| && xs[i] == r.value && FirstMatch(xs, p, i)
  {
    match FindIndex(xs, p)
    case None => None
    case Some(i) => Some(xs[i])
  }

  /** `xs` is ordered from the largest key to the smallest. */
  predicate SortedDesc<T>(xs: seq<T>, key: T -> real) {
    forall i, j :: 0 <= i < j < |xs| ==> key(xs[i]) >= key(xs[j])
  }

  /** Places `x` into the descending sequence `xs` in front of the first element whose key is not larger. */
  function Insert<T(==)>(x: T, xs: seq<T>, key: T -> real): (r: seq<T>)
    requires SortedDesc(xs, key)
    ensures SortedDesc(r, key)
    ensures multiset(r) == multiset(xs) + multiset{x}
    ensures |r| == |xs| + 1
  {
    if xs == [] then [x]
    else if key(xs[0]) <= key(x) then [x] + xs
    else
      var rest := Insert(x, xs[1..], key);
      assert xs == [xs[0]] + xs[1..];
      InsertStep(x, xs[0], xs[1..], rest, key);
      [xs[0]] + rest
  }

  /** One step of `Insert`: a head at least as large as every key behind it stays in front. */
  lemma InsertStep<T>(x: T, head: T, tail: seq<T>, rest: seq<T>, key: T -> real)
    requires SortedDesc([head] + tail, key)
    requires key(head) > key(x)
    requires SortedDesc(rest, key)
    requires multiset(rest) == multiset(tail) + multiset{x}
    ensures SortedDesc([head] + rest, key)
    ensures multiset([head] + rest) == multiset([head] + tail) + multiset{x}
  {
    var xs, r := [head] + tail, [head] + rest;
    forall k | 0 <= k < |rest| ensures key(head) >= key(rest[k]) {
      assert rest[k] in multiset(rest);
      if rest[k] != x {
        assert rest[k] in multiset(tail);
        var j :| 0 <= j < |tail| && tail[j] == rest[k];
        assert xs[0] == head && xs[j + 1] == rest[k];
        assert key(xs[0]) >= key(xs[j + 1]);
      }
    }
    forall i, j | 0 <= i < j < |r| ensures key(r[i]) >= key(r[j]) {
      assert r[j] == rest[j - 1];
      if i > 0 {
        assert r[i] == rest[i - 1];
      }
    }
    assert multiset(r) == multiset{head} + multiset(rest);
    assert multiset(xs) == multiset{head} + multiset(tail);
  }

  /**
   * `xs.sort((a, b) => key(b) - key(a))`: the same elements from the largest key to the
   * smallest. The built-in sort is stable, but that order among equal keys is not stated
   * here.
   */
  function SortDesc<T(==)>(xs: seq<T>, key: T -> real): (r: seq<T>)
    ensures SortedDesc(r, key)
    ensures multiset(r) == multiset(xs)
    ensures |r| == |xs|
  {
    if xs == [] then []
    else
      assert xs == [xs[0]] + xs[1..];
      Insert(xs[0], SortDesc(xs[1..], key), key)
  }

  /** `xs.slice(0, n)` of a descending sequence: the first `n` elements, none below any element left out. */
  function Leading<T>(xs: seq<T>, n: nat, key: T -> real): (r: seq<T>)
    requires SortedDesc(xs, key)
    ensures |r| == if |xs| < n then |xs| else n
    ensures r == xs[..|r|]
    ensures forall i, j :: 0 <= i < |r| <= j < |xs| ==> key(r[i]) >= key(xs[j])
  {
    xs[..if |xs| < n then |xs| else n]
  }

  /** `xs.map(f)`. */
  function Map<T, U>(xs: seq<T>, f: T -> U): (r: seq<U>)
    ensures |r| == |xs|
    ensures forall i :: 0 <= i < |xs| ==> r[i] == f(xs[i])
  {
    seq(|xs|, i requires 0 <= i < |xs| => f(xs[i]))
  }

  /** The largest of the ids together with 0, as `Math.max(...ids, 0)`. */
  function MaxWithZero(ids: seq<int>): (m: int)
    ensures m >= 0
    ensures forall i :: 0 <= i < |ids| ==> ids[i] <= m
    ensures m == 0 || exists i :: 0 <= i < |ids| && ids[i] == m
  {
    if ids == [] then 0
    else
      var m := MaxWithZero(ids[1..]);
      if ids[0] >= m then ids[0] else m
  }

  /** The id given to an appended record: one more than every existing id and at least 1. */
  function NextId(ids: seq<int>): (n: int)
    ensures n >= 1
    ensures forall i :: 0 <= i < |ids| ==> ids[i] < n
    ensures ids == [] ==> n == 1
    ensures n == 1 || exists i :: 0 <= i < |ids| && ids[i] == n - 1
  {
    MaxWithZero(ids) + 1
  }

  /** All entries are different. */
  predicate Distinct(ids: seq<int>) {
    forall i, j :: 0 <= i < j < |ids| ==> ids[i] != ids[j]
  }
}

=== FILE: records.dfy ===
/**
 * The five entities of the classroom and the read-time normalisation of their
 * fields. A record reaches the pages either from the hosted backend, whose
 * field names carry a `_c` suffix, or from fixture data with plain names; each
 * field the derivations read is kept twice here (`...C` for the suffixed name),
 * and every absent field is `None`.
 */
module Records {
  import opened Js

  datatype Student = Student(
    Id: int,
    firstNameC: Option<string>, firstName: Option<string>,
    lastNameC: Option<string>, lastName: Option<string>,
    emailC: Option<string>, email: Option<string>,
    gradeC: Option<string>, grade: Option<string>,     // the grade band, e.g. "10th Grade"
    classIdC: Option<int>, classId: Option<int>,
    statusC: Option<string>, status: Option<string>)

  datatype Class = Class(
    Id: int,
    nameC: Option<string>, name: Option<string>,
    subject: Option<string>, period: Option<string>, room: Option<string>)

  datatype Assignment = Assignment(Id: int, classId: Option<int>, totalPoints: Option<real>)

  datatype Grade = Grade(
    Id: int,
    studentIdC: Option<int>, studentId: Option<int>,
    assignmentId: Option<int>,
    scoreC: Option<real>, score: Option<real>,
    submittedDate: Option<string>)

  datatype AttendanceRecord = AttendanceRecord(
    Id: int,
    studentIdC: Option<int>, studentId: Option<int>,
    classId: Option<int>,
    dateC: Option<string>, date: Option<string>,
    statusC: Option<string>, status: Option<string>)

  // Normalised reads: `record.field_c || record.field`.

  function ClassIdOf(s: Student): Option<int> { OrInt(s.classIdC, s.classId) }
  function StatusOf(s: Student): Option<string> { OrString(s.statusC, s.status) }
  function FirstNameOf(s: Student): Option<string> { OrString(s.firstNameC, s.firstName) }
  function LastNameOf(s: Student): Option<string> { OrString(s.lastNameC, s.lastName) }
  function EmailOf(s: Student): Option<string> { OrString(s.emailC, s.email) }
  function GradeBandOf(s: Student): Option<string> { OrString(s.gradeC, s.grade) }
  function ClassNameOf(c: Class): Option<string> { OrString(c.nameC, c.name) }
  function GradeStudentIdOf(g: Grade): Option<int> { OrInt(g.studentIdC, g.studentId) }
  function RecordStudentIdOf(a: AttendanceRecord): Option<int> { OrInt(a.studentIdC, a.studentId) }
  function RecordDateOf(a: AttendanceRecord): Option<string> { OrString(a.dateC, a.date) }
  function RecordStatusOf(a: AttendanceRecord): Option<string> { OrString(a.statusC, a.status) }

  /** Normalisation accepts either naming: a status under either name reads the same. */
  lemma StatusEitherName(s: Student, t: Student, v: string)
    requires v != ""
    requires s.statusC == Some(v)
    requires t.statusC.None? && t.status == Some(v)
    ensures StatusOf(s) == StatusOf(t) == Some(v)
  {
  }

  /** A grade's score as the pages read it, `g.score_c || g.score`. */
  function ScoreAsWritten(g: Grade): (r: Option<real>)
    ensures g.scoreC.Some? && g.scoreC.value != 0.0 ==> r == g.scoreC
    ensures (g.scoreC.None? || g.scoreC == Some(0.0)) ==> r == g.score
  {
    OrReal(g.scoreC, g.score)
  }

  /**
   * A grade's score as intended: the suffixed score whenever it is present (0 included),
   * otherwise the plain one. A grade carrying neither counts as 0: a choice of this read,
   * since the written read gives `undefined` there and turns a sum into NaN.
   */
  function Score(g: Grade): (r: real)
    ensures g.scoreC.Some? ==> r == g.scoreC.value
    ensures g.scoreC.None? && g.score.Some? ==> r == g.score.value
    ensures g.scoreC.None? && g.score.None? ==> r == 0.0
  {
    if g.scoreC.Some? then g.scoreC.value
    else if g.score.Some? then g.score.value
    else 0.0
  }

  /** Wherever the written read yields a number, the intended one yields the same number. */
  lemma ScoreRefinesAsWritten(g: Grade)
    requires ScoreAsWritten(g).Some?
    requires g.scoreC.Some? ==> g.scoreC.value != 0.0
    ensures Score(g) == ScoreAsWritten(g).value
  {
  }

  /** A backend grade whose suffixed score is 0 and that has no plain score reads as `undefined`. */
  lemma ZeroSuffixedScoreIsLost()
    ensures var g := Grade(1, Some(7), None, None, Some(0.0), None, None);
      ScoreAsWritten(g).None? && Score(g) == 0.0
  {
  }
}

=== FILE: reports.dfy ===
/**
 * The Reports page: the overview figures, the per-student averages behind
 * "Top Performing Students", and the per-class performance list
 * (src/components/pages/Reports.jsx). Every read is normalised
 * (`field_c || field`); scores are read with `Records.Score`.
 */
module Reports {
  import opened Js
  import opened Records
  import Lists
  import Stats

  /** The class filter: `"all"` or one class id. */
  datatype Selection = All | OneClass(classId: int)

  /** The students the page reports on. */
  function FilteredStudents(selection: Selection, students: seq<Student>): (r: seq<Student>)
    ensures selection.All? ==> r == students
    ensures selection.OneClass? ==>
      && (forall i :: 0 <= i < |r| ==> r[i] in students && ClassIdOf(r[i]) == Some(selection.classId))
      && (forall i :: 0 <= i < |students| && ClassIdOf(students[i]) == Some(selection.classId) ==> students[i] in r)
      && Lists.IsSubsequence(r, students)
      && (forall s | s in students :: multiset(r)[s] == if ClassIdOf(s) == Some(selection.classId) then multiset(students)[s] else 0)
      && multiset(r) <= multiset(students)
  {
    match selection
    case All => students
    case OneClass(id) => Lists.Filter(students, (s: Student) => ClassIdOf(s) == Some(id))
  }

  /**
   * The "Active Students" ring, `(activeStudents / totalStudents) * 100`: a percentage for a
   * non-empty selection, NaN for an empty one.
   */
  function ActiveRing(active: nat, total: nat): (r: Number)
    requires active <= total
    ensures total == 0 ==> r == NaN
    ensures total > 0 ==> r.Finite? && 0.0 <= r.value <= 100.0 && r.value * (total as real) == 100.0 * (active as real)
  {
    var share := Divide(Finite(active as real), Finite(total as real));
    if total > 0 then
      Stats.RatioScaled(active as real, total as real);
      Scale(share, 100.0)
    else Scale(share, 100.0)
  }

  /** The overview cards. */
  datatype Overview = Overview(totalStudents: nat, activeStudents: nat, attendanceRate: int, averageGrade: int)

  /**
   * The four figures: the selection's size and active count; the present share of all
   * attendance records and the rounded mean of all grades, neither of them filtered by class.
   */
  function ComputeOverview(selection: Selection, students: seq<Student>, records: seq<AttendanceRecord>,
                           grades: seq<Grade>): (r: Overview)
    ensures r.totalStudents == |FilteredStudents(selection, students)|
    ensures r.activeStudents == Stats.ActiveCount(FilteredStudents(selection, students))
    ensures r.activeStudents <= r.totalStudents
    ensures selection.All? ==> r.totalStudents == |students|
    ensures 0 <= r.attendanceRate <= 100
    ensures records != [] ==> Stats.RoundedShare(r.attendanceRate, Lists.Count(records, Stats.IsPresent), |records|)
    ensures Stats.RoundedMean(r.averageGrade, grades)
  {
    var shown := FilteredStudents(selection, students);
    Overview(|shown|, Stats.ActiveCount(shown), Stats.PresentRate(records), Stats.AverageScore(grades))
  }

  /** A student with the mean of their scores. */
  datatype StudentRow = StudentRow(student: Student, average: real)

  /** The grades of one student, by the normalised student id. */
  function GradesOf(grades: seq<Grade>, studentId: int): (r: seq<Grade>)
    ensures forall i :: 0 <= i < |r| ==> r[i] in grades && GradeStudentIdOf(r[i]) == Some(studentId)
    ensures forall i :: 0 <= i < |grades| && GradeStudentIdOf(grades[i]) == Some(studentId) ==> grades[i] in r
    ensures Lists.IsSubsequence(r, grades)
    ensures forall g | g in grades :: multiset(r)[g] == if GradeStudentIdOf(g) == Some(studentId) then multiset(grades)[g] else 0
    ensures multiset(r) <= multiset(grades)
  {
    Lists.Filter(grades, (g: Grade) => GradeStudentIdOf(g) == Some(studentId))
  }

  /** The unrounded mean score of a student's grades; 0 for a student without grades. */
  function StudentMean(grades: seq<Grade>, studentId: int): (r: real)
    ensures Stats.IsMean(r, GradesOf(grades, studentId))
  {
    Stats.MeanScore(GradesOf(grades, studentId))
  }

  /** With every score a percentage, each student's mean is one too. */
  lemma StudentMeanIsPercent(grades: seq<Grade>, studentId: int)
    requires forall i :: 0 <= i < |grades| ==> 0.0 <= Score(grades[i]) <= 100.0
    ensures 0.0 <= StudentMean(grades, studentId) <= 100.0
  {
    var mine := GradesOf(grades, studentId);
    forall i | 0 <= i < |mine| ensures 0.0 <= Score(mine[i]) <= 100.0 {
      var j :| 0 <= j < |grades| && grades[j] == mine[i];
    }
    Stats.MeanScoreIsPercent(mine);
  }

  /** Every reported student with their mean, in the selection's order. */
  function StudentRows(shown: seq<Student>, grades: seq<Grade>): (r: seq<StudentRow>)
    ensures |r| == |shown|
    ensures forall i :: 0 <= i < |r| ==> r[i] == StudentRow(shown[i], StudentMean(grades, shown[i].Id))
  {
    seq(|shown|, i requires 0 <= i < |shown| => StudentRow(shown[i], StudentMean(grades, shown[i].Id)))
  }

  function AverageKey(row: StudentRow): real { row.average }

  /**
   * `studentGradeAverages`: the selected students with their means, best first: a reordering
   * of the students' rows, one row per student, each carrying that student's mean.
   */
  function StudentGradeAverages(selection: Selection, students: seq<Student>, grades: seq<Grade>): (r: seq<StudentRow>)
    ensures |r| == |FilteredStudents(selection, students)|
    ensures Lists.SortedDesc(r, AverageKey)
    ensures multiset(r) == multiset(StudentRows(FilteredStudents(selection, students), grades))
    ensures forall i :: 0 <= i < |r| ==>
      r[i].student in FilteredStudents(selection, students) && r[i].average == StudentMean(grades, r[i].student.Id)
  {
    var rows := StudentRows(FilteredStudents(selection, students), grades);
    var r := Lists.SortDesc(rows, AverageKey);
    forall i | 0 <= i < |r|
      ensures r[i].student in FilteredStudents(selection, students) && r[i].average == StudentMean(grades, r[i].student.Id)
    {
      assert r[i] in multiset(rows);
      var j :| 0 <= j < |rows| && rows[j] == r[i];
    }
    r
  }

  /** "Top Performing Students": the first five rows, none of them below any row left out. */
  function TopPerformers(rows: seq<StudentRow>): (r: seq<StudentRow>)
    requires Lists.SortedDesc(rows, AverageKey)
    ensures |r| == if |rows| < 5 then |rows| else 5
    ensures r == rows[..|r|]
    ensures forall i, j :: 0 <= i < |r| <= j < |rows| ==> r[i].average >= rows[j].average
  {
    Lists.Leading(rows, 5, AverageKey)
  }

  /** A class with its rounded average and its number of students. */
  datatype ClassRow = ClassRow(cls: Class, average: int, studentCount: nat)

  /** The figures of one class, over all students and grades. */
  function ClassRowOf(cls: Class, students: seq<Student>, grades: seq<Grade>): (r: ClassRow)
    ensures r.cls == cls
    ensures r.studentCount == |Stats.ClassStudents(students, cls.Id)|
    ensures Stats.RoundedMean(r.average, Stats.ClassGrades(grades, students, cls.Id))
  {
    ClassRow(cls, Stats.ClassAverage(grades, students, cls.Id), |Stats.ClassStudents(students, cls.Id)|)
  }

  function ClassRows(classes: seq<Class>, students: seq<Student>, grades: seq<Grade>): (r: seq<ClassRow>)
    ensures |r| == |classes|
    ensures forall i :: 0 <= i < |r| ==> r[i] == ClassRowOf(classes[i], students, grades)
  {
    seq(|classes|, i requires 0 <= i < |classes| => ClassRowOf(classes[i], students, grades))
  }

  function ClassKey(row: ClassRow): real { row.average as real }

  /**
   * `classPerformance`: every class (whatever the filter) with its figures, best average first:
   * a reordering of the classes' rows.
   */
  function ClassPerformance(classes: seq<Class>, students: seq<Student>, grades: seq<Grade>): (r: seq<ClassRow>)
    ensures |r| == |classes|
    ensures Lists.SortedDesc(r, ClassKey)
    ensures multiset(r) == multiset(ClassRows(classes, students, grades))
    ensures forall i :: 0 <= i < |r| ==> r[i].cls in classes && r[i] == ClassRowOf(r[i].cls, students, grades)
  {
    var rows := ClassRows(classes, students, grades);
    var r := Lists.SortDesc(rows, ClassKey);
    forall i | 0 <= i < |r| ensures r[i].cls in classes && r[i] == ClassRowOf(r[i].cls, students, grades) {
      assert r[i] in multiset(rows);
      var j :| 0 <= j < |rows| && rows[j] == r[i];
    }
    r
  }

  /** "Class Performance": the first five rows, none of them below any class left out. */
  function TopClasses(rows: seq<ClassRow>): (r: seq<ClassRow>)
    requires Lists.SortedDesc(rows, ClassKey)
    ensures |r| == if |rows| < 5 then |rows| else 5
    ensures r == rows[..|r|]
    ensures forall i, j :: 0 <= i < |r| <= j < |rows| ==> r[i].average >= rows[j].average
  {
    Lists.Leading(rows, 5, ClassKey)
  }

  /** Each class appears in the performance list with its own figures. */
  lemma EveryClassListed(classes: seq<Class>, students: seq<Student>, grades: seq<Grade>, k: int)
    requires 0 <= k < |classes|
    ensures ClassRowOf(classes[k], students, grades) in ClassPerformance(classes, students, grades)
  {
    var rows := ClassRows(classes, students, grades);
    assert rows[k] in multiset(rows);
  }
}

=== FILE: stats.dfy ===
/**
 * The arithmetic the attendance and grade summaries share: a present-rate in
 * whole percent and the rounded mean of grade scores.
 */
module Stats {
  import opened Js
  import opened Records
  import Lists

  /** `r` is `100 * part / whole` rounded to the nearest whole number (halves up). */
  predicate RoundedShare(r: int, part: nat, whole: nat) {
    (r as real - 0.5) * (whole as real) <= 100.0 * (part as real) < (r as real + 0.5) * (whole as real)
  }

  /** `total > 0 ? Math.round((present / total) * 100) : 0`. */
  function PercentOf(present: nat, total: nat): (r: int)
    requires present <= total
    ensures 0 <= r <= 100
    ensures total == 0 ==> r == 0
    ensures total > 0 ==> RoundedShare(r, present, total)
  {
    if total > 0 then
      var x := present as real / total as real * 100.0;
      PercentBounds(present, total);
      Round(x)
    else 0
  }

  /** For 0 <= a <= b with b > 0, a / b * 100 lies in [0, 100] and times b gives back 100 a. */
  lemma RatioScaled(a: real, b: real)
    requires 0.0 <= a <= b && b > 0.0
    ensures 0.0 <= a / b * 100.0 <= 100.0
    ensures a / b * 100.0 * b == 100.0 * a
  {
    var q := a / b;
    assert q * b == a;
  }

  /** Multiplying a bracketed value by a positive factor keeps the bracket. */
  lemma ScaleBetween(q: real, n: real, lo: real, hi: real)
    requires n > 0.0 && lo <= q < hi
    ensures lo * n <= q * n < hi * n
  {
    assert (q - lo) * n >= 0.0;
    assert (hi - q) * n > 0.0;
  }

  /** The rounded percentage brackets the exact one, scaled back by `total`. */
  lemma PercentBounds(present: nat, total: nat)
    requires 0 < total && present <= total
    ensures var r := Round(present as real / total as real * 100.0);
      && 0 <= r <= 100
      && RoundedShare(r, present, total)
  {
    var t := total as real;
    var p := present as real;
    RatioScaled(p, t);
    ScaledQuotient(p / t, (100.0 * p) / t, p, t);
    MeanBounds(100.0 * p, t);
  }

  /** (p / t) * 100 and (100 p) / t are the same number. */
  lemma ScaledQuotient(a: real, b: real, p: real, t: real)
    requires t > 0.0 && a * t == p && b * t == 100.0 * p
    ensures a * 100.0 == b
  {
    assert (a * 100.0 - b) * t == 0.0;
  }

  /** `grades.reduce((sum, g) => sum + (g.score_c || g.score), 0)`, with `undefined` making NaN. */
  function ScoreTotalAsWritten(gs: seq<Grade>): Number {
    if gs == [] then Finite(0.0)
    else AddField(ScoreTotalAsWritten(gs[..|gs| - 1]), ScoreAsWritten(gs[|gs| - 1]))
  }

  /** The sum of the grades' scores, each read with `Score`. */
  function ScoreTotal(gs: seq<Grade>): real {
    if gs == [] then 0.0 else ScoreTotal(gs[..|gs| - 1]) + Score(gs[|gs| - 1])
  }

  /** `n > 0 ? Math.round(sum / n) : 0`. */
  function MeanRounded(sum: real, n: nat): (r: int)
    ensures n == 0 ==> r == 0
    ensures n > 0 ==> (r as real - 0.5) * (n as real) <= sum < (r as real + 0.5) * (n as real)
  {
    if n > 0 then
      MeanBounds(sum, n as real);
      Round(sum / n as real)
    else 0
  }

  lemma MeanBounds(sum: real, n: real)
    requires n > 0.0
    ensures var r := Round(sum / n) as real; (r - 0.5) * n <= sum < (r + 0.5) * n
  {
    var q := sum / n;
    var r := Round(q) as real;
    ScaleBetween(q, n, r - 0.5, r + 0.5);
    assert q * n < (r + 0.5) * n;
    assert q * n == sum;
    assert sum < (r + 0.5) * n;
  }

  /** `r` is the exact mean score of `gs`, or 0 for no grades. */
  predicate IsMean(r: real, gs: seq<Grade>) {
    && (gs == [] ==> r == 0.0)
    && (gs != [] ==> r * (|gs| as real) == ScoreTotal(gs))
  }

  /** `n > 0 ? sum / n : 0` over the scores, unrounded. */
  function MeanScore(gs: seq<Grade>): (r: real)
    ensures IsMean(r, gs)
  {
    if |gs| > 0 then
      var n := |gs| as real;
      var q := ScoreTotal(gs) / n;
      assert q * n == ScoreTotal(gs);
      q
    else 0.0
  }

  /** A mean `m` with `m * n == total`, `lo * n <= total <= hi * n` and `n > 0` lies in [lo, hi]. */
  lemma MeanWithin(m: real, n: real, total: real, lo: real, hi: real)
    requires n > 0.0 && m * n == total && lo * n <= total <= hi * n
    ensures lo <= m <= hi
  {
    assert (m - hi) * n == m * n - hi * n;
    NonPositiveFactor(m - hi, n);
    assert (lo - m) * n == lo * n - m * n;
    NonPositiveFactor(lo - m, n);
  }

  /** A product with a positive factor is not positive only when the other factor is not. */
  lemma NonPositiveFactor(d: real, n: real)
    requires n > 0.0 && d * n <= 0.0
    ensures d <= 0.0
  {
  }

  /** A product with a positive factor is positive only when the other factor is. */
  lemma PositiveFactor(d: real, n: real)
    requires n > 0.0 && d * n > 0.0
    ensures d > 0.0
  {
  }

  /** With every score a percentage, so is the exact mean. */
  lemma MeanScoreIsPercent(gs: seq<Grade>)
    requires forall i :: 0 <= i < |gs| ==> 0.0 <= Score(gs[i]) <= 100.0
    ensures 0.0 <= MeanScore(gs) <= 100.0
  {
    ScoreTotalBounds(gs, 0.0, 100.0);
    if gs != [] {
      MeanWithin(MeanScore(gs), |gs| as real, ScoreTotal(gs), 0.0, 100.0);
    }
  }

  /** `r` is the mean score of `gs` rounded to a whole number (halves up), or 0 for no grades. */
  predicate RoundedMean(r: int, gs: seq<Grade>) {
    && (gs == [] ==> r == 0)
    && (gs != [] ==> (r as real - 0.5) * (|gs| as real) <= ScoreTotal(gs) < (r as real + 0.5) * (|gs| as real))
  }

  /** The rounded mean score of a list of grades; 0 for none. */
  function AverageScore(gs: seq<Grade>): (r: int)
    ensures RoundedMean(r, gs)
  {
    MeanRounded(ScoreTotal(gs), |gs|)
  }

  /** Scores in [lo, hi] have a mean in [lo, hi], so their rounded mean lies within a unit of it. */
  lemma {:induction false} ScoreTotalBounds(gs: seq<Grade>, lo: real, hi: real)
    requires forall i :: 0 <= i < |gs| ==> lo <= Score(gs[i]) <= hi
    ensures lo * (|gs| as real) <= ScoreTotal(gs) <= hi * (|gs| as real)
  {
    if gs != [] {
      ScoreTotalBounds(gs[..|gs| - 1], lo, hi);
    }
  }

  /** With every score between 0 and 100, the rounded mean score is a percentage in [0, 100]. */
  lemma AverageScoreIsPercent(gs: seq<Grade>)
    requires forall i :: 0 <= i < |gs| ==> 0.0 <= Score(gs[i]) <= 100.0
    ensures 0 <= AverageScore(gs) <= 100
  {
    ScoreTotalBounds(gs, 0.0, 100.0);
    if gs != [] {
      RoundedWithin(AverageScore(gs) as real, |gs| as real, ScoreTotal(gs), 0.0, 100.0);
    }
  }

  /** A value rounded from `total / n`, with `total / n` in [lo, hi], lies within half a unit of [lo, hi]. */
  lemma RoundedWithin(r: real, n: real, total: real, lo: real, hi: real)
    requires n > 0.0 && (r - 0.5) * n <= total < (r + 0.5) * n && lo * n <= total <= hi * n
    ensures lo - 0.5 < r <= hi + 0.5
  {
    assert (r - 0.5 - hi) * n == (r - 0.5) * n - hi * n;
    NonPositiveFactor(r - 0.5 - hi, n);
    assert (r + 0.5 - lo) * n == (r + 0.5) * n - lo * n;
    PositiveFactor(r + 0.5 - lo, n);
  }

  /** `(s.status_c || s.status) === "Active"`. */
  predicate IsActive(s: Student) {
    StatusOf(s) == Some("Active")
  }

  /** The number of active students; never more than the students, so the inactive count is not negative. */
  function ActiveCount(students: seq<Student>): (n: nat)
    ensures n == |set i | 0 <= i < |students| && IsActive(students[i])|
    ensures n <= |students|
    ensures n == 0 <==> forall i :: 0 <= i < |students| ==> !IsActive(students[i])
    ensures (forall i :: 0 <= i < |students| ==> IsActive(students[i])) ==> n == |students|
  {
    assert Lists.Matching(students, IsActive) == set i | 0 <= i < |students| && IsActive(students[i]);
    if forall i :: 0 <= i < |students| ==> IsActive(students[i]) then
      Lists.FilterAll(students, IsActive);
      Lists.Count(students, IsActive)
    else Lists.Count(students, IsActive)
  }

  /** `(a.status_c || a.status) === "present"`. */
  predicate IsPresent(a: AttendanceRecord) {
    RecordStatusOf(a) == Some("present")
  }

  /** The share of present records in whole percent, 0 for no records. */
  function PresentRate(records: seq<AttendanceRecord>): (r: int)
    ensures 0 <= r <= 100
    ensures records == [] ==> r == 0
    ensures records != [] ==> RoundedShare(r, Lists.Count(records, IsPresent), |records|)
  {
    PercentOf(Lists.Count(records, IsPresent), |records|)
  }

  /**
   * The whole-list average as written, `Math.round(sum / n)` over `score_c || score`, on
   * JavaScript numbers: one unreadable score makes it NaN.
   */
  function AverageScoreAsWritten(gs: seq<Grade>): (r: Number)
    ensures gs == [] ==> r == Finite(0.0)
  {
    if gs == [] then Finite(0.0)
    else RoundNumber(Divide(ScoreTotalAsWritten(gs), Finite(|gs| as real)))
  }

  /** Where every score reads as a number other than a suffixed 0, the written sum is the intended one. */
  lemma {:induction false} ScoreTotalAgrees(gs: seq<Grade>)
    requires forall i :: 0 <= i < |gs| ==> ScoreAsWritten(gs[i]).Some?
    requires forall i :: 0 <= i < |gs| ==> gs[i].scoreC != Some(0.0)
    ensures ScoreTotalAsWritten(gs) == Finite(ScoreTotal(gs))
  {
    if gs != [] {
      ScoreTotalAgrees(gs[..|gs| - 1]);
      ScoreRefinesAsWritten(gs[|gs| - 1]);
    }
  }

  /** On such grades the written average and the corrected one agree. */
  lemma AverageScoreAgrees(gs: seq<Grade>)
    requires forall i :: 0 <= i < |gs| ==> ScoreAsWritten(gs[i]).Some?
    requires forall i :: 0 <= i < |gs| ==> gs[i].scoreC != Some(0.0)
    ensures AverageScoreAsWritten(gs) == Finite(AverageScore(gs) as real)
  {
    ScoreTotalAgrees(gs);
  }

  /** A single backend grade scored 0 turns the written average into NaN; the corrected one is 0. */
  lemma ZeroScoreMakesAverageNaN()
    ensures var gs := [Grade(1, Some(7), None, None, Some(0.0), None, None)];
      AverageScoreAsWritten(gs) == NaN && AverageScore(gs) == 0
  {
    var gs := [Grade(1, Some(7), None, None, Some(0.0), None, None)];
    assert gs[..0] == [];
    ZeroSuffixedScoreIsLost();
    assert ScoreTotal(gs) == 0.0;
  }

  /** `(s.classId_c || s.classId) === classId`. */
  function ClassStudents(students: seq<Student>, classId: int): (r: seq<Student>)
    ensures forall i :: 0 <= i < |r| ==> r[i] in students && ClassIdOf(r[i]) == Some(classId)
    ensures forall i :: 0 <= i < |students| && ClassIdOf(students[i]) == Some(classId) ==> students[i] in r
    ensures Lists.IsSubsequence(r, students)
    ensures forall s | s in students :: multiset(r)[s] == if ClassIdOf(s) == Some(classId) then multiset(students)[s] else 0
    ensures multiset(r) <= multiset(students)
  {
    Lists.Filter(students, (s: Student) => ClassIdOf(s) == Some(classId))
  }

  /** `classStudents.some(s => s.Id === (g.studentId_c || g.studentId))`. */
  predicate ByOneOf(g: Grade, students: seq<Student>) {
    GradeStudentIdOf(g).Some? && exists i :: 0 <= i < |students| && students[i].Id == GradeStudentIdOf(g).value
  }

  /** The grade belongs to a student enrolled in the class. */
  predicate GradedInClass(g: Grade, students: seq<Student>, classId: int) {
    exists j :: 0 <= j < |students| && ClassIdOf(students[j]) == Some(classId) && GradeStudentIdOf(g) == Some(students[j].Id)
  }

  /** The grades given to any student of the class, in order. */
  function ClassGrades(grades: seq<Grade>, students: seq<Student>, classId: int): (r: seq<Grade>)
    ensures forall i :: 0 <= i < |r| ==> r[i] in grades && GradedInClass(r[i], students, classId)
    ensures forall i :: 0 <= i < |grades| && GradedInClass(grades[i], students, classId) ==> grades[i] in r
    ensures Lists.IsSubsequence(r, grades)
    ensures forall g | g in grades :: multiset(r)[g] == if GradedInClass(g, students, classId) then multiset(grades)[g] else 0
    ensures multiset(r) <= multiset(grades)
  {
    var members := ClassStudents(students, classId);
    var r := Lists.Filter(grades, (g: Grade) => ByOneOf(g, members));
    forall i | 0 <= i < |r| ensures GradedInClass(r[i], students, classId) {
      MemberIffGraded(r[i], students, classId);
    }
    forall g | g in grades ensures GradedInClass(g, students, classId) == ByOneOf(g, members) {
      MemberIffGraded(g, students, classId);
    }
    r
  }

  /** Grading one of the class's students is grading in the class. */
  lemma MemberIffGraded(g: Grade, students: seq<Student>, classId: int)
    ensures ByOneOf(g, ClassStudents(students, classId)) <==> GradedInClass(g, students, classId)
  {
    if ByOneOf(g, ClassStudents(students, classId)) {
      MemberIsGraded(g, students, classId);
    }
    if GradedInClass(g, students, classId) {
      GradedIsMember(g, students, classId);
    }
  }

  lemma MemberIsGraded(g: Grade, students: seq<Student>, classId: int)
    requires ByOneOf(g, ClassStudents(students, classId))
    ensures GradedInClass(g, students, classId)
  {
    var members := ClassStudents(students, classId);
    var i :| 0 <= i < |members| && members[i].Id == GradeStudentIdOf(g).value;
    var j :| 0 <= j < |students| && students[j] == members[i];
  }

  lemma GradedIsMember(g: Grade, students: seq<Student>, classId: int)
    requires GradedInClass(g, students, classId)
    ensures ByOneOf(g, ClassStudents(students, classId))
  {
    var members := ClassStudents(students, classId);
    var j :| 0 <= j < |students| && ClassIdOf(students[j]) == Some(classId) && GradeStudentIdOf(g) == Some(students[j].Id);
    var i :| 0 <= i < |members| && members[i] == students[j];
  }

  /** A class's rounded mean score; 0 when none of its students has a grade. */
  function ClassAverage(grades: seq<Grade>, students: seq<Student>, classId: int): (r: int)
    ensures RoundedMean(r, ClassGrades(grades, students, classId))
  {
    AverageScore(ClassGrades(grades, students, classId))
  }

  /** With every score a percentage, so is each class average. */
  lemma ClassAverageIsPercent(grades: seq<Grade>, students: seq<Student>, classId: int)
    requires forall i :: 0 <= i < |grades| ==> 0.0 <= Score(grades[i]) <= 100.0
    ensures 0 <= ClassAverage(grades, students, classId) <= 100
  {
    var gs := ClassGrades(grades, students, classId);
    forall i | 0 <= i < |gs| ensures 0.0 <= Score(gs[i]) <= 100.0 {
      var j :| 0 <= j < |grades| && grades[j] == gs[i];
    }
    AverageScoreIsPercent(gs);
  }
}

=== FILE: student_table.dfy ===
/** The roster table's status badge (src/components/organisms/StudentTable.jsx). */
module StudentTable {
  import opened Js
  import opened Badge

  /** `getStatusVariant`, applied to `status_c || status`: a total lookup with a default. */
  function StatusVariant(status: Option<string>): (r: Variant)
    ensures r == Success <==> status == Some("Active")
    ensures r == Error <==> status == Some("Inactive")
    ensures r == Warning <==> status == Some("Suspended")
    ensures r == Default <==> status !in {Some("Active"), Some("Inactive"), Some("Suspended")}
  {
    match status
    case Some("Active") => Success
    case Some("Inactive") => Error
    case Some("Suspended") => Warning
    case _ => Default
  }

  /** The three statuses get three different colours, none of them the default. */
  lemma StatusesDistinguished(a: string, b: string)
    requires a in {"Active", "Inactive", "Suspended"} && b in {"Active", "Inactive", "Suspended"}
    ensures StatusVariant(Some(a)) != Default
    ensures a != b ==> StatusVariant(Some(a)) != StatusVariant(Some(b))
  {
  }
}

=== FILE: students_page.dfy ===
/**
 * The Students page: the class name joined onto each student, and the roster
 * search (src/components/pages/Students.jsx).
 */
module StudentsPage {
  import opened Js
  import opened Records
  import Text
  import Lists

  /** A roster row: the student and the name of their class. */
  datatype Row = Row(student: Student, className: string)

  /** The class the student's normalised `classId` refers to: `classes.find(...)`. */
  predicate IsClassOf(c: Class, s: Student) {
    ClassIdOf(s) == Some(c.Id)
  }

  /**
   * `className`: the name (`name_c`, else `name`) of the first class whose id is the
   * student's normalised class id; "No Class" when there is none or its name is empty.
   */
  function ClassNameFor(classes: seq<Class>, s: Student): (r: string)
    ensures r != ""
    ensures (forall i :: 0 <= i < |classes| ==> !IsClassOf(classes[i], s)) ==> r == "No Class"
    ensures forall i :: Lists.FirstMatch(classes, c => IsClassOf(c, s), i) ==>
      r == if TruthyString(ClassNameOf(classes[i])) then ClassNameOf(classes[i]).value else "No Class"
  {
    match Lists.Find(classes, c => IsClassOf(c, s))
    case None => "No Class"
    case Some(c) => if TruthyString(ClassNameOf(c)) then ClassNameOf(c).value else "No Class"
  }

  /** The enrichment keeps every student, in order, and adds only the class name. */
  function Enrich(students: seq<Student>, classes: seq<Class>): (r: seq<Row>)
    ensures |r| == |students|
    ensures forall i :: 0 <= i < |r| ==> r[i].student == students[i] && r[i].className == ClassNameFor(classes, students[i])
  {
    seq(|students|, i requires 0 <= i < |students| => Row(students[i], ClassNameFor(classes, students[i])))
  }

  /** A value in a template literal: `undefined` when absent. */
  function Interpolate(v: Option<string>): string {
    if v.Some? then v.value else "undefined"
  }

  /** `${first} ${last}` over the normalised names. */
  function FullName(s: Student): string {
    Interpolate(FirstNameOf(s)) + " " + Interpolate(LastNameOf(s))
  }

  /** The lowered term occurs in the lowered full name, email or grade band (an absent field matches nothing). */
  predicate Matches(s: Student, term: string) {
    var t := Text.Lower(term);
    || Text.Includes(Text.Lower(FullName(s)), t)
    || (EmailOf(s).Some? && Text.Includes(Text.Lower(EmailOf(s).value), t))
    || (GradeBandOf(s).Some? && Text.Includes(Text.Lower(GradeBandOf(s).value), t))
  }

  /**
   * The filter lowers the email whenever the name does not match, and the grade band whenever
   * neither matches; a missing one there makes it throw.
   */
  predicate Searchable(s: Student, term: string) {
    var t := Text.Lower(term);
    || Text.Includes(Text.Lower(FullName(s)), t)
    || (EmailOf(s).Some? && (Text.Includes(Text.Lower(EmailOf(s).value), t) || GradeBandOf(s).Some?))
  }

  /** The search: the rows whose student matches the term, in order; an empty term keeps them all. */
  function Search(rows: seq<Row>, term: string): (r: seq<Row>)
    requires forall i :: 0 <= i < |rows| ==> Searchable(rows[i].student, term)
    ensures Lists.IsSubsequence(r, rows)
    ensures forall row | row in rows :: multiset(r)[row] == if Matches(row.student, term) then multiset(rows)[row] else 0
    ensures multiset(r) <= multiset(rows)
    ensures forall i :: 0 <= i < |r| ==> Matches(r[i].student, term)
    ensures forall i :: 0 <= i < |rows| && Matches(rows[i].student, term) ==> rows[i] in r
    ensures term == [] ==> r == rows
  {
    if term == [] then
      forall i | 0 <= i < |rows| ensures Matches(rows[i].student, term) {
        Text.IncludesEmpty(Text.Lower(FullName(rows[i].student)));
      }
      Lists.FilterAll(rows, (row: Row) => Matches(row.student, term));
      Lists.Filter(rows, (row: Row) => Matches(row.student, term))
    else
      Lists.Filter(rows, (row: Row) => Matches(row.student, term))
  }

  /** Searching the result again with the same term changes nothing. */
  lemma SearchIdempotent(rows: seq<Row>, term: string)
    requires forall i :: 0 <= i < |rows| ==> Searchable(rows[i].student, term)
    ensures var once := Search(rows, term);
      (forall i :: 0 <= i < |once| ==> Searchable(once[i].student, term)) && Search(once, term) == once
  {
    var once := Search(rows, term);
    Lists.FilterAll(once, (row: Row) => Matches(row.student, term));
  }
}

=== FILE: text.dfy ===
/**
 * The string operations the search filters and the form validation use:
 * `toLowerCase`, `includes`, `trim` and `split("T")[0]`, over ASCII.
 */
module Text {

  predicate IsUpper(c: char) {
    'A' <= c <= 'Z'
  }

  /** `toLowerCase` on one character (ASCII letters only). */
  function LowerChar(c: char): (r: char)
    ensures !IsUpper(r)
    ensures !IsUpper(c) ==> r == c
    ensures IsUpper(c) ==> 'a' <= r <= 'z' && r as int - 'a' as int == c as int - 'A' as int
  {
    if IsUpper(c) then (c as int - 'A' as int + 'a' as int) as char else c
  }

  /** `toLowerCase`: the same string with every upper-case letter lowered. */
  function Lower(s: string): (r: string)
    ensures |r| == |s|
    ensures forall i :: 0 <= i < |s| ==> r[i] == LowerChar(s[i])
  {
    seq(|s|, i requires 0 <= i < |s| => LowerChar(s[i]))
  }

  /** `t` occurs in `s` starting at position `i`. */
  predicate OccursAt(s: string, t: string, i: int) {
    0 <= i && i + |t| <= |s| && s[i..i + |t|] == t
  }

  /** `s.includes(t)`. */
  predicate Includes(s: string, t: string) {
    exists i | 0 <= i <= |s| - |t| :: OccursAt(s, t, i)
  }

  /** Every string includes the empty string. */
  lemma IncludesEmpty(s: string)
    ensures Includes(s, "")
  {
    assert OccursAt(s, "", 0);
  }

  /** The white-space characters `trim` removes (the ASCII ones). */
  predicate IsSpace(c: char) {
    c == ' ' || c == '\t' || c == '\n' || c == '\r' || c == '\U{000B}' || c == '\U{000C}'
  }

  predicate AllSpace(s: string) {
    forall i :: 0 <= i < |s| ==> IsSpace(s[i])
  }

  /** The first position at or after `i` that does not hold white space (`|s|` if none). */
  function SkipSpaces(s: string, i: nat): (a: nat)
    requires i <= |s|
    ensures i <= a <= |s|
    ensures forall k :: i <= k < a ==> IsSpace(s[k])
    ensures a == |s| || !IsSpace(s[a])
    decreases |s| - i
  {
    if i == |s| || !IsSpace(s[i]) then i else SkipSpaces(s, i + 1)
  }

  /** The end of the last character before `j`, and not before `lo`, that is not white space (`lo` if none). */
  function BackSpaces(s: string, lo: nat, j: nat): (b: nat)
    requires lo <= j <= |s|
    ensures lo <= b <= j
    ensures forall k :: b <= k < j ==> IsSpace(s[k])
    ensures b == lo || !IsSpace(s[b - 1])
    decreases j
  {
    if j == lo || !IsSpace(s[j - 1]) then j else BackSpaces(s, lo, j - 1)
  }

  /** `trim`: both ends stripped of white space. */
  function Trim(s: string): (r: string)
    ensures r == [] || (!IsSpace(r[0]) && !IsSpace(r[|r| - 1]))
    ensures r == [] <==> AllSpace(s)
    ensures exists i | 0 <= i <= |s| - |r| :: OccursAt(s, r, i) && AllSpace(s[..i]) && AllSpace(s[i + |r|..])
  {
    var a := SkipSpaces(s, 0);
    var b := BackSpaces(s, a, |s|);
    assert OccursAt(s, s[a..b], a);
    assert AllSpace(s[..a]) && AllSpace(s[b..]);
    assert a < b ==> s[a..b][0] == s[a] && s[a..b][b - a - 1] == s[b - 1];
    assert a == b ==> forall k :: 0 <= k < |s| ==> IsSpace(s[k]);
    s[a..b]
  }

  /** Trimming is idempotent: a trimmed value needs no further trimming. */
  lemma TrimIdempotent(s: string)
    ensures Trim(Trim(s)) == Trim(s)
  {
    var r := Trim(s);
    if r != [] {
      assert SkipSpaces(r, 0) == 0;
      assert BackSpaces(r, 0, |r|) == |r|;
      assert r[0..|r|] == r;
    }
  }

  /** `s.split("T")[0]`: everything before the first "T", or all of `s` when it has none. */
  function BeforeT(s: string): (r: string)
    ensures |r| <= |s| && r == s[..|r|]
    ensures 'T' !in r
    ensures |r| < |s| ==> s[|r|] == 'T'
  {
    if s == [] || s[0] == 'T' then []
    else [s[0]] + BeforeT(s[1..])
  }
}
